=== FILE: README.md ===
# Decaying tic-tac-toe server, modelled in Dafny

This project models the deterministic rules of the strixos server. The server
pairs WebSocket clients into two-player games of "decaying" tic-tac-toe. Every
mark starts with six lives. After every move, each occupied cell loses a life,
and a cell that has none left is cleared.

Each component is modelled as immutable data plus pure transition functions.
Goroutines, channels and sockets are replaced by explicit events and steps.

| file | module | models |
|---|---|---|
| `wrappers.dfy` | `Wrappers` | `Option` and `Result`, which stand in for Go's `nil` and `error` returns |
| `board.dfy` | `Boards` | `internal/game/board.go`: the nine-cell board, placement, win detection with highlighting, the draw test, life decay |
| `identity.dfy` | `Identities` | `internal/identity/identity.go`: identities and their secret-free projection |
| `identities_map.dfy` | `IdentityRegistry` | `internal/identity/identitiesMap.go`: the id → identity registry |
| `identity_manager.dfy` | `IdentityManager` | `internal/identity/identityManager.go`: registration and validation |
| `messages.dfy` | `Messages` | the client message types, their wire tags, and the inputs a game or the server receives |
| `player.dfy` | `Players` | `internal/game/player.go`: player state and how `Listen` routes decoded messages |
| `player_queue.dfy` | `PlayerQueue` | `internal/server/playerQueue.go`: the matchmaking FIFO with its id index |
| `game.dfy` | `Games` | `internal/game/game.go` and `internal/game/inviteGame.go`: game construction and one iteration of either game loop |
| `invite_game_manager.dfy` | `InviteGames` | `internal/game/inviteGameManager.go`: the registry of invite games |
| `server.dfy` | `Servers` | `internal/server/server.go`: the per-event effects on the server state, the queue loop's pairing step, and the connection handshake |

## Representation choices

- **Board.** A board is a sequence of exactly nine cells, row-major. Cell (row, col) is at index `3*row + col`.
- **Players.** A player session is a handle (`PlayerRef`) into a `PlayerTable`. The table holds each session's identity and in-game flag.
  - Go shares `*Player` pointers between the queue, the games and the server. Handles keep that sharing visible.
  - A flag set through one holder is seen by every holder.
- **Queue.** The doubly-linked queue is a sequence of nodes plus a map from id to node.
  - Each node carries a serial number that stands for its pointer identity.
  - The source never refuses a duplicate enqueue. The serials let the model say exactly what happens then: the list grows while the index keeps only one node.
- **Game loops.** A game loop is the function `Games.Step`. It takes the turn state `(board, current, other)` and one event, either a cancellation or an input from one of the two players' channels.
  - The result either continues with a new turn or ends. An ending carries the message sent upstream to the server.
  - The matchmade loop and the invite loop differ only in the win branch, selected by `LoopKind`.
- **Helpers outside the model.** `IdentitiesMap.UpdateIdentity` and `IdentitiesMap.ValidateIdentity` are called from `server.go` but defined outside the files this model covers. Both are function-valued parameters:
  - `IdentityUpdater` for the update
  - the `validate` argument of `Players.Listen` for the validation
- **Fresh ids and secrets.** Game ids, player ids and secrets come from a cryptographic generator in the source. They are parameters here.

In these cases the model follows what the code does:

- A disconnect of the player who is not on turn is read by the game loop and discarded: `game.go` matches `DisconnectedMessage` only on the current player's channel. Likewise, a close request from the player on turn is ignored. `Games.UnmatchedEndingsIgnored` states both.
- When the other player sends a close request, the close is written back to that same player, not to the opponent (`game.go:141`). `Games.OtherCloseEnds` states this.
- `AddPlayer` removes the provisional identity only when the first read fails. A first message that is malformed, or is not an identity update, leaves the identity registered. `Servers.RejectedHandshakeKeepsProvisionalIdentity` states this.
- No handler removes a session from the table, and a game request is accepted from a player who is in a game. A player who is queued and in a game and then disconnects stays queued, because the disconnect reaches only the game. `Servers.DisconnectedPlayerStaysQueued` states this.

## Model

| member | source | states |
|---|---|---|
| Boards.NewBoard | internal/game/board.go:21-30 | all nine cells are `("-", 6, false)` |
| Boards.CheckValidIndex | internal/game/board.go:32-34 | an index is valid exactly when it lies in 0..2 |
| Boards.GetPoint | internal/game/board.go:41-52 | fails with a row error when the row is out of range, otherwise with a column error when the column is; otherwise returns that cell's value |
| Boards.CheckValidInsertion | internal/game/board.go:36-39 | a placement is allowed exactly when both indices are in range and the cell is empty |
| Boards.SetCell | internal/game/board.go:54-64 | succeeds exactly when the placement is allowed, and fails with `InvalidInsertion` otherwise; any mark is accepted; on success the target cell becomes `(mark, 6, false)` and every other cell is unchanged |
| Boards.SetThenGet | internal/game/board.go:41-64 | reading back a cell just set yields the placed mark, and the cell accepts another placement only if the placed mark was `"-"` |
| Boards.LinesValid | internal/game/board.go:66-101 | there are eight lines to check, each of three in-range cells |
| Boards.LinesAreRowsColumnsDiagonals | internal/game/board.go:70-98 | the eight lines are row i then column i for i = 0..2, then the main diagonal (cells with row = column) and the anti-diagonal (row + column = 2); each row line holds exactly the cells of its row and each column line exactly the cells of its column; every line has three distinct cells |
| Boards.Highlight | internal/game/board.go:72-98 | marking a line sets `WinState` on exactly its three cells and changes nothing else |
| Boards.FirstWonLineFromBounds | internal/game/board.go:66-101 | a line index returned by the reference scan from line k lies in k..7 |
| Boards.FirstWonLineFromIsFirst | internal/game/board.go:66-101 | the scan from line k finds nothing exactly when no line from k on wins; otherwise it returns a winning line with no winning line between k and it |
| Boards.CheckDiagonals | internal/game/board.go:86-98 | the diagonal checks (main, then anti) agree with the reference scan from line 6 |
| Boards.CheckRowsAndColumns | internal/game/board.go:70-84 | the loop over i (row i, then column i) agrees with the reference scan from line 2i |
| Boards.CheckWin | internal/game/board.go:66-101 | reports a win exactly when some row, column or diagonal holds three equal non-empty values; on a win only the first such line in check order is highlighted; without a win the board is unchanged; values never change |
| Boards.AllOccupiedFrom | internal/game/board.go:103-115 | the scan from index i finds no empty cell exactly when no cell from i on is empty |
| Boards.CheckDraw | internal/game/board.go:103-115 | a draw exactly when no cell is empty |
| Boards.UpdateLives | internal/game/board.go:117-135 | empty cells are unchanged; an occupied cell with 0 lives becomes `("-", 6, false)`; every other occupied cell loses exactly one life and keeps its value |
| Boards.NewBoardWellFormed | internal/game/board.go:8-30 | a new board has lives in 0..6 and full lives on every empty cell; it has no winning line and is not a draw |
| Boards.UpdateLivesPreservesWellFormed | internal/game/board.go:123-132 | decay keeps lives in 0..6 and keeps empty cells at full lives |
| Boards.SetCellPreservesWellFormed | internal/game/board.go:54-64 | a placement keeps the board well formed |
| Boards.SameMarksPreservesWellFormed | internal/game/board.go:66-101 | changing only win states, as highlighting does, keeps the board well formed |
| Boards.DecayCountsDown | internal/game/board.go:126-132 | an occupied cell with l lives keeps its value through n ≤ l decays and has l − n lives left |
| Boards.DecayClears | internal/game/board.go:126-128 | an occupied cell with l lives is cleared by decay number l + 1 |
| Boards.PlacedMarkLifetime | internal/game/board.go:61 | a freshly placed mark survives six decays and is cleared by the seventh |
| Identities.NewIdentity | internal/identity/identity.go:10-17 | keeps the id and secret, with the default avatar and an empty display name |
| Identities.NewInitialIdentity | internal/identity/identity.go:30-35 | keeps exactly the id and the secret |
| Identities.GetSafeIdentity | internal/identity/identity.go:37-43 | copies the id, avatar and display name |
| Identities.SafeIdentityIndependentOfSecret | internal/identity/identity.go:19-23 | identities that differ only in their secret have the same projection, so the projection cannot reveal the secret |
| Identities.SafeIdentityKeepsPublicFields | internal/identity/identity.go:37-43 | two identities with the same public fields project to the same safe identity, and only those do |
| IdentityRegistry.NewIdentitiesMap | internal/identity/identitiesMap.go:10-15 | the registry starts empty |
| IdentityRegistry.GetIdentity | internal/identity/identitiesMap.go:38-46 | returns the stored identity, or the zero identity with `IdentityNotFound` |
| IdentityRegistry.AddIdentity | internal/identity/identitiesMap.go:17-30 | a fresh id is stored with no error; an existing id with a different secret gives `SpoofedIdentity`, and with the same secret gives `IdentityExists`; on error the map is unchanged; other ids are never touched |
| IdentityRegistry.RemoveIdentity | internal/identity/identitiesMap.go:32-36 | afterwards the id is not found and every other id is unchanged |
| IdentityRegistry.RemoveIdentityIdempotent | internal/identity/identitiesMap.go:32-36 | removing twice is the same as removing once |
| IdentityRegistry.AddNeverReplacesStoredIdentity | internal/identity/identitiesMap.go:17-30 | once an id is stored, no later add changes what is stored for it |
| IdentityManager.RegisterIdentity | internal/identity/identityManager.go:39-48 | returns the identity `(id, secret)`, with empty avatar and display name, whatever happens; afterwards the id is registered; a fresh id is stored with that identity; on a collision the add error is ignored and the map is unchanged; other ids are untouched |
| IdentityManager.ValidateIdentity | internal/identity/identityManager.go:50-60 | an unknown id gives `(false, IdentityNotFound)`; a known id with a different secret gives `(false, SpoofedIdentity)`; a matching secret gives `(true, none)` |
| IdentityManager.RegisterThenValidate | internal/identity/identityManager.go:39-60 | an identity registered under a fresh id then validates |
| IdentityManager.SpoofRejected | internal/identity/identityManager.go:50-58 | after registering an id, adding or validating a claim to it with another secret is rejected as spoofed and leaves the map unchanged, while the registered identity still validates |
| Messages.TypeOfTag | pkg/shared/clientMessages.go:3-10 | a recognised type has exactly the decoded tag; an unrecognised tag is carried unchanged |
| Messages.TagRoundTrip | pkg/shared/clientMessages.go:3-10 | every known message type decodes back from its own tag |
| Players.NewPlayer | internal/game/player.go:28-40 | a new session holds the given identity and is not in a game |
| Players.SetIsInGame | internal/game/player.go:243-247 | sets the flag to the given value and keeps the identity |
| Players.UpdateIdentity | internal/game/player.go:216-220 | replaces the identity and keeps the flag |
| Players.SetFlag | internal/game/player.go:243-247 | sets one session's flag in the table; the keys and every other session are unchanged |
| Players.Dispatch | internal/game/player.go:94-185 | a message is dropped exactly when its type needs a body and none was decoded; game-scoped types (move, close, leave game, unknown) go to the game channel and all other types go to the server channel; what is forwarded is the decoded message: a move with its row, column and mark, a close re-typed as `"gameClosed"` with its identity and reason, an identity update with the new identity, a join or leave-invite with its game id, a base message with its type and identity, an unrecognised type as an unknown message |
| Players.Listen | internal/game/player.go:42-214 | the listener stops on a read failure or cancellation; a read failure routes the disconnect to the game channel exactly when the player is in a game, otherwise to the server channel; an undecodable frame, or a message whose identity does not validate as `(true, none)`, is dropped; a message whose identity validates is routed by its decoded type; on cancellation nothing is routed to either channel |
| Players.RoutingSplit | internal/game/player.go:94-185 | each message type reaches at most one channel, and which one depends only on its type |
| Players.CloseForwardedRetyped | internal/game/player.go:115-127 | a close request reaches the game re-typed as `"gameClosed"`, with the same identity and reason |
| Players.UnknownTypeSurfaced | internal/game/player.go:182-184 | an unrecognised type reaches the game channel as an unknown message |
| PlayerQueue.NewPlayerQueue | internal/server/playerQueue.go:109-116 | a new queue is empty and consistent, with no head and no tail |
| PlayerQueue.Head | internal/server/playerQueue.go:29-36 | the head is the first node, and absent exactly when the queue is empty |
| PlayerQueue.Tail | internal/server/playerQueue.go:29-36 | the tail is the last node, and absent exactly when the queue is empty |
| PlayerQueue.HeadNilIffTailNil | internal/server/playerQueue.go:52-56 | the head is absent exactly when the tail is |
| PlayerQueue.IsPlayerInQueue | internal/server/playerQueue.go:101-107 | membership is a lookup in the index |
| PlayerQueue.IndexAnswersMembership | internal/server/playerQueue.go:101-107 | in a consistent queue, the index lookup holds exactly when some listed node has that id |
| PlayerQueue.Enqueue | internal/server/playerQueue.go:23-39 | appends a new node at the tail; earlier nodes and their order are unchanged; the index maps the id to the new node |
| PlayerQueue.EnqueueFreshPreservesConsistent | internal/server/playerQueue.go:27-38 | enqueueing an id not already queued keeps list and index consistent |
| PlayerQueue.EnqueueDuplicateBreaksConsistent | internal/server/playerQueue.go:27-38 | enqueueing an id that is already queued breaks consistency, since the method performs no check |
| PlayerQueue.Dequeue | internal/server/playerQueue.go:41-60 | an empty queue returns nothing and is unchanged; otherwise returns the head's player, drops the head and its index entry |
| PlayerQueue.DequeuePreservesConsistent | internal/server/playerQueue.go:41-60 | dequeueing keeps a consistent queue consistent |
| PlayerQueue.RemoveNode | internal/server/playerQueue.go:62-84 | unlinking a node that is absent changes nothing; unlinking a present node makes the run one shorter |
| PlayerQueue.RemoveNodeKeepsOrder | internal/server/playerQueue.go:71-81 | unlinking cuts out exactly the first occurrence of the node and keeps every other node in its original order |
| PlayerQueue.WithoutMembers | internal/server/playerQueue.go:62-84 | the filtered list holds exactly the nodes with other ids |
| PlayerQueue.WithoutDistinct | internal/server/playerQueue.go:62-84 | filtering keeps ids distinct |
| PlayerQueue.RemoveNodeIsWithout | internal/server/playerQueue.go:62-84 | with distinct ids, unlinking the node that carries an id is the same as filtering that id out |
| PlayerQueue.WithoutIdentity | internal/server/playerQueue.go:62-66 | filtering an id that no node carries changes nothing |
| PlayerQueue.RemovePlayer | internal/server/playerQueue.go:62-84 | an absent id is a no-op; a present id removes exactly that node, keeps the order of the rest and drops the index entry; consistency is preserved |
| PlayerQueue.AbsentIdFiltersNothing | internal/server/playerQueue.go:62-66 | in a consistent queue, an id missing from the index is carried by no node |
| PlayerQueue.RemovePreservesConsistent | internal/server/playerQueue.go:62-84 | removal by id keeps the queue consistent |
| PlayerQueue.GetTwoPlayers | internal/server/playerQueue.go:86-99 | fewer than two nodes gives no pair and no change; otherwise returns the first two in FIFO order and leaves the remainder; consistency is preserved |
| PlayerQueue.PairHasDistinctIds | internal/server/playerQueue.go:86-99 | in a consistent queue the paired ids differ and neither remains queued |
| PlayerQueue.RunsStayConsistent | internal/server/playerQueue.go:23-99 | any run of operations in which every enqueue uses an id not already queued keeps the queue consistent |
| PlayerQueue.FifoPairingScenario | internal/server/playerQueue.go:23-99 | three players enqueued in turn: pairing yields the first two in order and leaves the third queued |
| Games.NewGame | internal/game/game.go:24-38 | an empty board, player 1 and player 2 seated in order, both flagged in game, identities and other sessions unchanged |
| Games.NewEmptyInviteGame | internal/game/inviteGame.go:19-30 | no players and an empty board |
| Games.NewInviteGame | internal/game/inviteGame.go:32-44 | the creator is player 1 and flagged in game; player 2 is empty |
| Games.AddFirstPlayer | internal/game/inviteGame.go:46-51 | sets only the first seat, and flags that player in game |
| Games.AddSecondPlayer | internal/game/inviteGame.go:53-58 | sets only the second seat, and flags that player in game |
| Games.Start | internal/game/game.go:48-57 | player 1 moves first and is told "x"; player 2 is told "o" |
| Games.Played | internal/game/game.go:93-104 | after a legal move the loop either ends with the mover as winner on a board with a winning line, or swaps the turn on the decayed board, which has no winning line; a won game ends on the board `CheckWin` highlighted, and a matchmade win sends that board with the mover as winner to both players; well-formed boards stay well formed |
| Games.Step | internal/game/game.go:59-172 | only a legal move by the player on turn changes the turn, by placing, decaying and swapping; a win is only ever a legal move by that player; any other ending keeps the board; cancellation ends the loop with nothing sent upstream or to either player; the board stays well formed |
| Games.InvalidMoveRejected | internal/game/game.go:81-91 | an invalid or occupied target leaves board and turn unchanged and sends an error only to the mover |
| Games.LegalMoveSwapsTurn | internal/game/game.go:93-104 | a legal move without a win yields the decayed board with the players swapped |
| Games.WinningMoveEnds | internal/game/inviteGame.go:112-121 | a winning move ends the game with the mover as winner, on the board `CheckWin` highlighted after placement and decay; an invite game reports its id, that board, the winner and the players upstream; a matchmade game reports nothing upstream and sends the game-over notice with that board to both players |
| Games.OtherMoveIgnored | internal/game/game.go:145-148 | a move from the player not on turn changes nothing |
| Games.LeaveGameEnds | internal/game/game.go:111-116 | a leave-game request from either side ends the game, reporting the requester and the remaining player |
| Games.CancelledEnds | internal/game/game.go:61-65 | cancellation ends the game at once, keeping the board, reporting nothing upstream and writing nothing to either player |
| Games.LeaveQueueIgnored | internal/game/game.go:117-120 | a leave-queue request inside a game is ignored |
| Games.CurrentDisconnectEnds | internal/game/game.go:70-76 | a disconnect of the player on turn ends the game as that player's disconnect and is forwarded to the opponent |
| Games.OtherCloseEnds | internal/game/game.go:138-144 | a close from the player not on turn ends the game as that player's disconnect |
| Games.UnmatchedEndingsIgnored | internal/game/game.go:67-170 | a disconnect on the waiting player's channel and a close on the current player's channel are ignored |
| Games.RunStep | internal/game/game.go:41-46 | whenever the loop ends, both players' in-game flags are cleared and no other session changes |
| Games.PlayKeepsInvariant | internal/game/game.go:59-172 | over any run of events the board stays well formed, the turn stays with the same two players, and a winner is always one of them |
| Games.StartIsWellFormed | internal/game/game.go:24-57 | a new game starts on a well-formed, unwon board with player 1 on turn |
| InviteGames.NewInviteGameManager | internal/game/inviteGameManager.go:10-15 | the registry starts empty |
| InviteGames.GetGame | internal/game/inviteGameManager.go:29-34 | finds the registered game exactly when its id is registered |
| InviteGames.AddGame | internal/game/inviteGameManager.go:17-21 | registers the game under its own id, overwriting any previous entry; other ids are unchanged |
| InviteGames.RemoveGame | internal/game/inviteGameManager.go:23-27 | afterwards the id is not found; other ids are unchanged |
| InviteGames.AddGameOverwrites | internal/game/inviteGameManager.go:17-21 | adding a second game with the same id replaces the first |
| InviteGames.RemoveUndoesAdd | internal/game/inviteGameManager.go:17-27 | adding a game under a fresh id and then removing it restores the registry |
| Servers.NewServer | internal/server/server.go:26-35 | a new server has an empty queue, no identities, no invite games and no sessions |
| Servers.HandleRequestGame | internal/server/server.go:98-102 | enqueues the requester at the tail unconditionally, keeping the earlier nodes; tells the requester to wait; nothing else changes |
| Servers.HandleLeaveQueueRequest | internal/server/server.go:104-108 | afterwards the requester's id is not queued, and a consistent queue loses exactly the nodes with that id; nothing else changes |
| Servers.HandleLeaveGameRequest | internal/server/server.go:110-116 | clears both players' in-game flags and leaves every other session unchanged; the requester is told it was removed and the other player that the game closed; no game starts and the listener keeps running |
| Servers.QueueTick | internal/server/server.go:131-140 | with two players waiting, starts a matchmade game under the given id on a new board, with the head as player 1 (who moves first) and the next as player 2, leaves the rest of the queue, flags both in game and leaves every other session unchanged, writes no notice and keeps the loop running; otherwise nothing changes |
| Servers.Opponent | internal/server/server.go:164-173 | the opponent is player 2 when the disconnected player's id equals player 1's id, otherwise player 1 |
| Servers.OnGameMessage | internal/server/server.go:147-189 | a leave-game report is handled as a leave request; a disconnect is handled as a leave request by the disconnected player against the opponent `Opponent` picks; an invite game's end removes the old id, registers a fresh empty invite game, tells both players the board, the winner and the fresh id, starts nothing and keeps the listener running |
| Servers.HandleJoinInvite | internal/server/server.go:219-244 | a full game changes nothing and stops the listener; with only player 1 seated the joiner becomes player 2 and the game starts; otherwise the joiner becomes player 1; a join that is not refused writes no notice |
| Servers.OnPlayerMessage | internal/server/server.go:191-289 | a disconnect removes the player's id from the queue and the registry and changes nothing else; an identity update applies the updater to the registry only and writes no notice; leave-invite removes that game and changes nothing else; create-invite registers a new invite game under the fresh id with the requester as player 1, flags the requester in game, tells the requester the id, and changes nothing else; a join is handled as `HandleJoinInvite`, a game request as `HandleRequestGame` and a leave-queue request as `HandleLeaveQueueRequest`; any other base message, such as a leave-game request outside a game, changes nothing; only a join can start a game or stop the listener |
| Servers.AddPlayer | internal/server/server.go:46-96 | the session joins the table, with the claimed identity, exactly when the first message is an accepted identity update; the registry is the registration's result after an undecodable or wrong-type first message, the registration with the id removed again after a failed read, and the updater's result after an identity update, so only a failed read removes the provisional identity |
| Servers.NewServerInv | internal/server/server.go:26-35 | a new server satisfies the server invariant |
| Servers.RemoveKeepsBacked | internal/server/server.go:104-108 | removing an id from the queue keeps the invariant |
| Servers.EnqueueKeepsBacked | internal/server/server.go:98-102 | a game request from a player not yet queued keeps the invariant |
| Servers.FlagsKeepBacked | internal/server/server.go:110-116 | changing only in-game flags keeps the invariant |
| Servers.QueueTickPreservesInv | internal/server/server.go:131-140 | the pairing step keeps the invariant |
| Servers.GameMessagePreservesInv | internal/server/server.go:147-189 | every game report keeps the invariant |
| Servers.PlayerMessagePreservesInv | internal/server/server.go:191-289 | every server-channel event keeps the invariant, except a repeated game request from a player already queued |
| Servers.AddPlayerPreservesInv | internal/server/server.go:46-96 | accepting or rejecting a connection keeps the invariant |
| Servers.RepeatedRequestPairsPlayerWithItself | internal/server/server.go:98-102 | a player who requests a game twice while waiting breaks queue consistency, and the next pairing seats that player against itself |
| Servers.RejectedHandshakeKeepsProvisionalIdentity | internal/server/server.go:57-80 | a first message that is not an identity update leaves the session out and the provisional identity registered |
| Servers.DisconnectedPlayerStaysQueued | internal/server/server.go:164-174 | sessions are never removed from the table, and a player in a game may still be queued; when that player's read fails, the disconnect goes to the game channel, and the game's report leaves the player queued, where a later pairing can pick the dropped session |

The server invariant (`Servers.Inv`) has three parts:
- the queue's list and index agree;
- every queued node belongs to a session in the table whose identity id is the node's id;
- every invite game is registered under its own id.

## Left out

- Transport and serialisation: WebSocket reads and writes, the upgrader, and JSON encoding and decoding. A decoded frame is a datatype, and a frame that does not decode is dropped.
- Concurrency: goroutines, channels, `select`, locks, `WaitGroup` and context cancellation. Each loop iteration is one step over one event, and cancellation is an event.
- Randomness: id and secret generation. Fresh ids and secrets are parameters.
- `IdentitiesMap.UpdateIdentity` and `IdentitiesMap.ValidateIdentity`: defined outside the files this model covers. They are uninterpreted parameters.
- `AVATAR_DEFAULT` is not part of this model. It is an uninterpreted constant.
- Servers.HandleJoinInvite: requires the invite game to be registered. When the lookup fails, the source goes on with a nil game, and that path is not modelled.
- Outbound message contents are simplified. Only the addressee and the kind of notice are modelled, plus the board, mark or winner the notice carries. Log lines are not modelled.
- The notices `AddPlayer` writes to the client after the handshake are not modelled. Only its effect on the session table and the identity registry is.
- A nil message on a closed game channel, which the source reads in a loop, is not modelled. The model has no channels.
- Messages.TypeOfTag: the tags of the identity-update and invite messages are assumed to be "updateIdentity", "joinInviteGame", "createInviteGame" and "leaveInviteGame"; the files that define them are not modelled.
- Board values are strings, and any mark string is accepted, as in the source. Win detection compares values for equality only.
- The two-field `Identity` declared in `internal/identity/identityManager.go` is merged into the four-field one of `internal/identity/identity.go`. A registered identity has an empty avatar and display name.
- The prototype `main.go` and the process bootstrap in `cmd/server/main.go` are not modelled.

=== FILE: board.dfy ===
/**
 * The 3×3 decaying tic-tac-toe board (internal/game/board.go).
 *
 * Cells are stored row-major in a sequence of nine: cell (row, col) is at
 * index 3 * row + col. Every placed mark starts with six lives and loses one
 * on every global decay; a mark whose lives have reached zero is cleared by
 * the next decay.
 */
module Boards {
  import opened Wrappers

  const InitialLives: int := 6
  const EmptyMark: string := "-"

  datatype Cell = Cell(value: string, lives: int, winState: bool)

  const EmptyCell: Cell := Cell(EmptyMark, InitialLives, false)

  type Board = b: seq<Cell> | |b| == 9
    witness [EmptyCell, EmptyCell, EmptyCell, EmptyCell, EmptyCell, EmptyCell, EmptyCell, EmptyCell, EmptyCell]

  datatype BoardError =
    | RowIndexInvalid(row: int)
    | ColIndexInvalid(col: int)
    | InvalidInsertion(row: int, col: int)

  /** Position of (row, col) in the row-major cell sequence. */
  function Pos(row: int, col: int): (p: nat)
    requires 0 <= row < 3 && 0 <= col < 3
    ensures p < 9
  {
    3 * row + col
  }

  /** An unoccupied cell: its value is "-". */
  predicate IsEmpty(c: Cell) {
    c.value == EmptyMark
  }

  /** A fresh board: nine empty cells, each holding the initial lives. */
  function NewBoard(): (b: Board)
    ensures forall p :: 0 <= p < 9 ==> b[p] == EmptyCell
  {
    [EmptyCell, EmptyCell, EmptyCell, EmptyCell, EmptyCell, EmptyCell, EmptyCell, EmptyCell, EmptyCell]
  }

  function CheckValidIndex(i: int): (ok: bool)
    ensures ok <==> 0 <= i < 3
  {
    i >= 0 && i < 3
  }

  /** The mark at (row, col); the row is checked before the column. */
  function GetPoint(b: Board, row: int, col: int): (r: Result<string, BoardError>)
    ensures r.Ok? <==> 0 <= row < 3 && 0 <= col < 3
    ensures r.Ok? ==> r.value == b[Pos(row, col)].value
    ensures !(0 <= row < 3) ==> r == Err(RowIndexInvalid(row))
    ensures 0 <= row < 3 && !(0 <= col < 3) ==> r == Err(ColIndexInvalid(col))
  {
    if !CheckValidIndex(row) then Err(RowIndexInvalid(row))
    else if !CheckValidIndex(col) then Err(ColIndexInvalid(col))
    else Ok(b[3 * row + col].value)
  }

  /** A move may go to (row, col) exactly when it is on the board and empty. */
  function CheckValidInsertion(b: Board, row: int, col: int): (ok: bool)
    ensures ok <==> 0 <= row < 3 && 0 <= col < 3 && IsEmpty(b[Pos(row, col)])
  {
    var v := GetPoint(b, row, col);
    v.Ok? && v.value == EmptyMark
  }

  /**
   * Places any mark string on a valid empty cell with full lives. On failure
   * the caller keeps its board: no cell is touched.
   */
  function SetCell(b: Board, row: int, col: int, mark: string): (r: Result<Board, BoardError>)
    ensures r.Ok? <==> CheckValidInsertion(b, row, col)
    ensures r.Err? ==> r.error == InvalidInsertion(row, col)
    ensures r.Ok? ==> r.value[Pos(row, col)] == Cell(mark, InitialLives, false)
    ensures r.Ok? ==> forall p :: 0 <= p < 9 && p != Pos(row, col) ==> r.value[p] == b[p]
  {
    if !CheckValidInsertion(b, row, col) then Err(InvalidInsertion(row, col))
    else Ok(b[Pos(row, col) := Cell(mark, InitialLives, false)])
  }

  /** A placed mark can be read back at the same position. */
  lemma SetThenGet(b: Board, row: int, col: int, mark: string)
    requires SetCell(b, row, col, mark).Ok?
    ensures GetPoint(SetCell(b, row, col, mark).value, row, col) == Ok(mark)
    ensures CheckValidInsertion(SetCell(b, row, col, mark).value, row, col) <==> mark == EmptyMark
  {
  }

  // ---------------------------------------------------------------------------
  // Win detection

  /** Three cell positions forming a line. */
  datatype Line = Line(a: nat, b: nat, c: nat)

  function RowLine(i: nat): Line
    requires i < 3
  {
    Line(3 * i, 3 * i + 1, 3 * i + 2)
  }

  function ColLine(i: nat): Line
    requires i < 3
  {
    Line(i, i + 3, i + 6)
  }

  const MainDiagonal: Line := Line(0, 4, 8)
  const AntiDiagonal: Line := Line(2, 4, 6)

  /** The eight lines in the order the board examines them. */
  const Lines: seq<Line> := [
    RowLine(0), ColLine(0), RowLine(1), ColLine(1), RowLine(2), ColLine(2),
    MainDiagonal, AntiDiagonal
  ]

  predicate OnLine(l: Line, p: nat) {
    p == l.a || p == l.b || p == l.c
  }

  predicate ValidLine(l: Line) {
    l.a < 9 && l.b < 9 && l.c < 9
  }

  /** Three equal marks, none of them empty. */
  predicate LineWins(b: Board, l: Line)
    requires ValidLine(l)
  {
    b[l.a].value != EmptyMark && b[l.a].value == b[l.b].value && b[l.b].value == b[l.c].value
  }

  lemma LinesValid()
    ensures |Lines| == 8
    ensures forall k :: 0 <= k < 8 ==> ValidLine(Lines[k])
  {
  }

  /**
   * The eight lines are the three rows, the three columns and the two
   * diagonals, examined as row i then column i, then the main diagonal and the
   * anti-diagonal; each consists of three distinct cells.
   */
  lemma LinesAreRowsColumnsDiagonals()
    ensures |Lines| == 8
    ensures forall k :: 0 <= k < 8 ==> Lines[k].a != Lines[k].b && Lines[k].b != Lines[k].c && Lines[k].a != Lines[k].c
    ensures forall i :: 0 <= i < 3 ==> Lines[2 * i] == RowLine(i) && Lines[2 * i + 1] == ColLine(i)
    ensures Lines[6] == MainDiagonal && Lines[7] == AntiDiagonal
    ensures forall i, p :: 0 <= i < 3 && 0 <= p < 9 ==> (OnLine(RowLine(i), p) <==> p / 3 == i)
    ensures forall i, p :: 0 <= i < 3 && 0 <= p < 9 ==> (OnLine(ColLine(i), p) <==> p % 3 == i)
    ensures forall p :: 0 <= p < 9 ==> (OnLine(MainDiagonal, p) <==> p / 3 == p % 3)
    ensures forall p :: 0 <= p < 9 ==> (OnLine(AntiDiagonal, p) <==> p / 3 + p % 3 == 2)
  {
  }

  /** Some canonical line is won. */
  predicate HasWinningLine(b: Board) {
    LinesValid();
    exists k :: 0 <= k < 8 && LineWins(b, Lines[k])
  }

  /** Line k is won and no line examined before it is. */
  predicate FirstWinning(b: Board, k: int) {
    LinesValid();
    0 <= k < 8 && LineWins(b, Lines[k]) && forall j :: 0 <= j < k ==> !LineWins(b, Lines[j])
  }

  /** Sets the highlight flag on the three cells of l, touching nothing else. */
  function Highlight(b: Board, l: Line): (h: Board)
    requires ValidLine(l)
    ensures forall p :: 0 <= p < 9 ==> h[p] == (if OnLine(l, p) then b[p].(winState := true) else b[p])
  {
    b[l.a := b[l.a].(winState := true)][l.b := b[l.b].(winState := true)][l.c := b[l.c].(winState := true)]
  }

  /** Same marks and lives everywhere; only highlight flags may differ. */
  predicate SameMarks(b: Board, b': Board) {
    forall p :: 0 <= p < 9 ==> b'[p].value == b[p].value && b'[p].lives == b[p].lives
  }

  /** Reference scan: the index of the first won line at or after k, in list order. */
  function FirstWonLineFrom(b: Board, k: nat): Option<nat>
    requires k <= 8
    decreases 8 - k
  {
    LinesValid();
    if k == 8 then None
    else if LineWins(b, Lines[k]) then Some(k)
    else FirstWonLineFrom(b, k + 1)
  }

  /** What the win check reports once the first won line (if any) is known. */
  function WinOutcome(b: Board, first: Option<nat>): (bool, Board)
    requires first.Some? ==> first.value < 8
  {
    LinesValid();
    match first
    case None => (false, b)
    case Some(k) => (true, Highlight(b, Lines[k]))
  }

  lemma {:induction false} FirstWonLineFromBounds(b: Board, k: nat)
    requires k <= 8
    ensures FirstWonLineFrom(b, k).Some? ==> k <= FirstWonLineFrom(b, k).value < 8
    decreases 8 - k
  {
    if k < 8 {
      FirstWonLineFromBounds(b, k + 1);
    }
  }

  function CheckDiagonals(b: Board): (r: (bool, Board))
    ensures r == WinOutcome(b, FirstWonLineFrom(b, 6))
  {
    assert Lines[6] == MainDiagonal && Lines[7] == AntiDiagonal;
    if LineWins(b, MainDiagonal) then (true, Highlight(b, MainDiagonal))
    else if LineWins(b, AntiDiagonal) then (true, Highlight(b, AntiDiagonal))
    else (false, b)
  }

  /** Row i, then column i, for i = start .. 2, then the diagonals. */
  function CheckRowsAndColumns(b: Board, i: nat): (r: (bool, Board))
    requires i <= 3
    decreases 3 - i
    ensures FirstWonLineFrom(b, 2 * i).Some? ==> FirstWonLineFrom(b, 2 * i).value < 8
    ensures r == WinOutcome(b, FirstWonLineFrom(b, 2 * i))
  {
    FirstWonLineFromBounds(b, 2 * i);
    if i == 3 then CheckDiagonals(b)
    else
      assert Lines[2 * i] == RowLine(i) && Lines[2 * i + 1] == ColLine(i);
      if LineWins(b, RowLine(i)) then (true, Highlight(b, RowLine(i)))
      else if LineWins(b, ColLine(i)) then (true, Highlight(b, ColLine(i)))
      else CheckRowsAndColumns(b, i + 1)
  }

  /** The reference scan finds exactly the first won line. */
  lemma {:induction false} FirstWonLineFromIsFirst(b: Board, k: nat)
    requires k <= 8
    ensures FirstWonLineFrom(b, k).None? <==> forall j :: k <= j < 8 ==> !LineWins(b, Lines[j])
    ensures FirstWonLineFrom(b, k).Some? ==>
              var f := FirstWonLineFrom(b, k).value;
              k <= f < 8 && LineWins(b, Lines[f]) && forall j :: k <= j < f ==> !LineWins(b, Lines[j])
    decreases 8 - k
  {
    LinesValid();
    if k < 8 && !LineWins(b, Lines[k]) {
      FirstWonLineFromIsFirst(b, k + 1);
    }
  }

  /**
   * Reports a win on any of the eight lines and highlights the first won line
   * in examination order. Marks and lives are never changed; without a win the
   * board is returned untouched.
   */
  function CheckWin(b: Board): (r: (bool, Board))
    ensures r.0 <==> HasWinningLine(b)
    ensures r.0 ==> exists k :: FirstWinning(b, k) && r.1 == Highlight(b, Lines[k])
    ensures !r.0 ==> r.1 == b
    ensures SameMarks(b, r.1)
  {
    FirstWonLineFromIsFirst(b, 0);
    var r := CheckRowsAndColumns(b, 0);
    if r.0 then
      var k := FirstWonLineFrom(b, 0).value;
      assert FirstWinning(b, k);
      r
    else r
  }

  // ---------------------------------------------------------------------------
  // Draw detection

  function AllOccupiedFrom(b: Board, p: nat): (r: bool)
    requires p <= 9
    decreases 9 - p
    ensures r <==> forall q :: p <= q < 9 ==> !IsEmpty(b[q])
  {
    if p == 9 then true
    else if b[p].value == EmptyMark then false
    else AllOccupiedFrom(b, p + 1)
  }

  /** A draw is a board with no empty cell. */
  function CheckDraw(b: Board): (r: bool)
    ensures r <==> forall p :: 0 <= p < 9 ==> !IsEmpty(b[p])
  {
    AllOccupiedFrom(b, 0)
  }

  // ---------------------------------------------------------------------------
  // Decay

  function DecayCell(c: Cell): Cell {
    if c.value == EmptyMark then c
    else if c.lives == 0 then EmptyCell
    else c.(lives := c.lives - 1)
  }

  /**
   * One global decay: empty cells are untouched, an occupied cell with no
   * lives left is cleared, every other occupied cell loses exactly one life.
   */
  function UpdateLives(b: Board): (r: Board)
    ensures forall p :: 0 <= p < 9 && IsEmpty(b[p]) ==> r[p] == b[p]
    ensures forall p :: 0 <= p < 9 && !IsEmpty(b[p]) && b[p].lives == 0 ==> r[p] == EmptyCell
    ensures forall p :: 0 <= p < 9 && !IsEmpty(b[p]) && b[p].lives != 0 ==>
              r[p] == b[p].(lives := b[p].lives - 1)
  {
    seq(9, p requires 0 <= p < 9 => DecayCell(b[p]))
  }

  /** Lives stay within [0, 6] and every empty cell holds the full 6. */
  predicate WellFormed(b: Board) {
    forall p :: 0 <= p < 9 ==> 0 <= b[p].lives <= InitialLives && (IsEmpty(b[p]) ==> b[p].lives == InitialLives)
  }

  lemma NewBoardWellFormed()
    ensures WellFormed(NewBoard())
    ensures !HasWinningLine(NewBoard()) && !CheckDraw(NewBoard())
  {
    assert !LineWins(NewBoard(), Lines[0]);
  }

  lemma UpdateLivesPreservesWellFormed(b: Board)
    ensures WellFormed(b) ==> WellFormed(UpdateLives(b))
  {
  }

  lemma SetCellPreservesWellFormed(b: Board, row: int, col: int, mark: string)
    ensures WellFormed(b) && SetCell(b, row, col, mark).Ok? ==> WellFormed(SetCell(b, row, col, mark).value)
  {
  }

  /** Highlighting cannot disturb the lives invariant. */
  lemma SameMarksPreservesWellFormed(b: Board, b': Board)
    requires SameMarks(b, b')
    ensures WellFormed(b) ==> WellFormed(b')
  {
  }

  /** The board after n global decays. */
  function DecayTimes(b: Board, n: nat): Board
    decreases n
  {
    if n == 0 then b else UpdateLives(DecayTimes(b, n - 1))
  }

  /** An occupied cell with L lives keeps its mark through L decays, one life per decay. */
  lemma {:induction false} DecayCountsDown(b: Board, p: nat, n: nat)
    requires p < 9 && !IsEmpty(b[p]) && n <= b[p].lives
    ensures DecayTimes(b, n)[p] == b[p].(lives := b[p].lives - n)
    decreases n
  {
    if n > 0 {
      DecayCountsDown(b, p, n - 1);
    }
  }

  /** ... and the decay after those clears it. */
  lemma DecayClears(b: Board, p: nat)
    requires p < 9 && !IsEmpty(b[p]) && 0 <= b[p].lives
    ensures DecayTimes(b, b[p].lives + 1)[p] == EmptyCell
  {
    DecayCountsDown(b, p, b[p].lives);
  }

  /**
   * A non-empty mark placed with full lives survives the next six decays and
   * is cleared by the seventh.
   */
  lemma PlacedMarkLifetime(b: Board, row: int, col: int, mark: string)
    requires mark != EmptyMark && SetCell(b, row, col, mark).Ok?
    ensures forall n :: 0 <= n <= 6 ==>
              DecayTimes(SetCell(b, row, col, mark).value, n)[Pos(row, col)] == Cell(mark, 6 - n, false)
    ensures DecayTimes(SetCell(b, row, col, mark).value, 7)[Pos(row, col)] == EmptyCell
  {
    var placed := SetCell(b, row, col, mark).value;
    var p := Pos(row, col);
    forall n | 0 <= n <= 6
      ensures DecayTimes(placed, n)[p] == Cell(mark, 6 - n, false)
    {
      DecayCountsDown(placed, p, n);
    }
    DecayClears(placed, p);
  }
}

=== FILE: game.dfy ===
/**
 * Game sessions and their turn loop (internal/game/game.go and
 * internal/game/inviteGame.go). The two loops differ only in what a winning
 * move reports, so both are one step function parameterised by the loop kind.
 * A step consumes one event (cancellation, or a message from the current or
 * the other player's game channel) and either continues with a new turn state
 * or ends the game.
 */
module Games {
  import opened Wrappers
  import opened Boards
  import opened Messages
  import opened Players

  datatype Game = Game(id: string, board: Board, player1: Option<PlayerRef>, player2: Option<PlayerRef>)

  /** Both players are flagged in game; the first is player 1 and will open with "x". */
  function NewGame(ps: PlayerTable, players: (PlayerRef, PlayerRef), id: string): (r: (Game, PlayerTable))
    requires players.0 in ps && players.1 in ps
    ensures r.0.id == id && r.0.board == NewBoard()
    ensures r.0.player1 == Some(players.0) && r.0.player2 == Some(players.1)
    ensures r.1.Keys == ps.Keys
    ensures r.1[players.0].isInGame && r.1[players.1].isInGame
    ensures r.1[players.0].identity == ps[players.0].identity && r.1[players.1].identity == ps[players.1].identity
    ensures forall o :: o in ps && o != players.0 && o != players.1 ==> r.1[o] == ps[o]
  {
    var ps1 := SetFlag(ps, players.0, true);
    var ps2 := SetFlag(ps1, players.1, true);
    (Game(id, NewBoard(), Some(players.0), Some(players.1)), ps2)
  }

  /** An invite game with no players yet. */
  function NewEmptyInviteGame(id: string): (g: Game)
    ensures g.id == id && g.board == NewBoard()
    ensures g.player1.None? && g.player2.None?
  {
    Game(id, NewBoard(), None, None)
  }

  /** An invite game opened by p, who is flagged in game and waits for a second player. */
  function NewInviteGame(ps: PlayerTable, p: PlayerRef, id: string): (r: (Game, PlayerTable))
    requires p in ps
    ensures r.0.id == id && r.0.board == NewBoard()
    ensures r.0.player1 == Some(p) && r.0.player2.None?
    ensures r.1 == SetFlag(ps, p, true)
  {
    (Game(id, NewBoard(), Some(p), None), SetFlag(ps, p, true))
  }

  function AddFirstPlayer(g: Game, ps: PlayerTable, p: PlayerRef): (r: (Game, PlayerTable))
    requires p in ps
    ensures r.0 == g.(player1 := Some(p))
    ensures r.1 == SetFlag(ps, p, true)
  {
    (g.(player1 := Some(p)), SetFlag(ps, p, true))
  }

  function AddSecondPlayer(g: Game, ps: PlayerTable, p: PlayerRef): (r: (Game, PlayerTable))
    requires p in ps
    ensures r.0 == g.(player2 := Some(p))
    ensures r.1 == SetFlag(ps, p, true)
  {
    (g.(player2 := Some(p)), SetFlag(ps, p, true))
  }

  // ---------------------------------------------------------------------------
  // The turn loop

  /** Matchmade games report a win to the players; invite games report it upstream. */
  datatype LoopKind = Matchmade | Invite

  /** The loop's state: the board and whose move is awaited. */
  datatype Turn = Turn(board: Board, current: PlayerRef, other: PlayerRef)

  datatype Side = FromCurrent | FromOther

  datatype LoopEvent = Cancelled | Input(side: Side, input: GameInput)

  /** What the loop writes to a player's connection. */
  datatype Notice =
    | StartGame(mark: string, board: Board)
    | MoveError(error: BoardError)
    | Update(board: Board, activePlayer: PlayerRef)
    | GameOver(board: Board, winner: PlayerRef)
    | Forward(input: GameInput)

  datatype Outbound = Outbound(to: PlayerRef, notice: Notice)

  /** What the loop reports on the game's own channel to the server. */
  datatype Upstream =
    | LeftGame(requester: PlayerRef, other: PlayerRef)
    | Disconnected(player: PlayerRef)
    | InviteOver(gameId: string, board: Board, winner: PlayerRef, players: (PlayerRef, PlayerRef))

  /** Why the loop ended. */
  datatype Ending = Won(winner: PlayerRef) | LeftBy(requester: PlayerRef) | DisconnectOf(player: PlayerRef) | Stopped

  datatype StepResult =
    | Continue(turn: Turn, out: seq<Outbound>)
    | Over(ending: Ending, board: Board, upstream: Option<Upstream>, out: seq<Outbound>)

  /** Player 1 moves first and is told "x"; player 2 is told "o". */
  function Start(g: Game): (r: (Turn, seq<Outbound>))
    requires g.player1.Some? && g.player2.Some?
    ensures r.0.current == g.player1.value && r.0.other == g.player2.value && r.0.board == g.board
    ensures r.1 == [Outbound(g.player1.value, StartGame("x", g.board)), Outbound(g.player2.value, StartGame("o", g.board))]
  {
    var current := g.player1.value;
    var other := g.player2.value;
    (Turn(g.board, current, other), [Outbound(current, StartGame("x", g.board)), Outbound(other, StartGame("o", g.board))])
  }

  /** The board after a legal move: placement, then global decay. */
  function AfterMove(b: Board, row: int, col: int, mark: string): Board
    requires CheckValidInsertion(b, row, col)
  {
    UpdateLives(SetCell(b, row, col, mark).value)
  }

  /** A move by the current player that the board accepts. */
  predicate IsLegalMove(t: Turn, ev: LoopEvent) {
    ev.Input? && ev.side == FromCurrent && ev.input.Move? && CheckValidInsertion(t.board, ev.input.row, ev.input.col)
  }

  /** The current player's move, after it has been placed and the board has decayed. */
  function Played(t: Turn, row: int, col: int, mark: string, kind: LoopKind, gameId: string): (r: StepResult)
    requires CheckValidInsertion(t.board, row, col)
    ensures r.Over? ==> r.ending == Won(t.current) && HasWinningLine(AfterMove(t.board, row, col, mark))
    ensures r.Over? ==> r.board == CheckWin(AfterMove(t.board, row, col, mark)).1
    ensures r.Over? && kind == Matchmade ==>
              r.out == [Outbound(t.current, GameOver(r.board, t.current)), Outbound(t.other, GameOver(r.board, t.current))]
    ensures r.Continue? ==> r.turn == Turn(AfterMove(t.board, row, col, mark), t.other, t.current)
                            && !HasWinningLine(r.turn.board)
    ensures WellFormed(t.board) ==> WellFormed(if r.Over? then r.board else r.turn.board)
  {
    var decayed := AfterMove(t.board, row, col, mark);
    var (won, highlighted) := CheckWin(decayed);
    SetCellPreservesWellFormed(t.board, row, col, mark);
    UpdateLivesPreservesWellFormed(SetCell(t.board, row, col, mark).value);
    SameMarksPreservesWellFormed(decayed, highlighted);
    if won then
      match kind
      case Matchmade =>
        Over(Won(t.current), highlighted, None,
             [Outbound(t.current, GameOver(highlighted, t.current)), Outbound(t.other, GameOver(highlighted, t.current))])
      case Invite =>
        Over(Won(t.current), highlighted, Some(InviteOver(gameId, highlighted, t.current, (t.current, t.other))), [])
    else
      Continue(Turn(highlighted, t.other, t.current),
               [Outbound(t.other, Update(highlighted, t.other)), Outbound(t.current, Update(highlighted, t.other))])
  }

  /**
   * One iteration of the game loop. Only a legal move by the current player
   * changes the turn; every other event either ends the game or leaves the
   * board and the turn exactly as they were.
   */
  function Step(kind: LoopKind, gameId: string, t: Turn, ev: LoopEvent): (r: StepResult)
    ensures r.Continue? ==>
              (r.turn == t && !IsLegalMove(t, ev))
              || (IsLegalMove(t, ev) && r.turn == Turn(AfterMove(t.board, ev.input.row, ev.input.col, ev.input.mark), t.other, t.current))
    ensures r.Over? && r.ending.Won? ==>
              IsLegalMove(t, ev) && r.ending.winner == t.current
              && HasWinningLine(AfterMove(t.board, ev.input.row, ev.input.col, ev.input.mark))
    ensures r.Over? && !r.ending.Won? ==> r.board == t.board
    ensures ev.Cancelled? ==> r.Over? && r.ending.Stopped? && r.upstream.None? && r.out == []
    ensures WellFormed(t.board) ==> WellFormed(if r.Over? then r.board else r.turn.board)
  {
    match ev
    case Cancelled => Over(Stopped, t.board, None, [])
    case Input(FromCurrent, input) =>
      (match input
       case PlayerDisconnected(_) =>
         Over(DisconnectOf(t.current), t.board, Some(Disconnected(t.current)), [Outbound(t.other, Forward(input))])
       case Move(row, col, mark) =>
         (match SetCell(t.board, row, col, mark)
          case Err(e) => Continue(t, [Outbound(t.current, MoveError(e))])
          case Ok(_) => Played(t, row, col, mark, kind, gameId))
       case GameBase(LeaveGameType, _) =>
         Over(LeftBy(t.current), t.board, Some(LeftGame(t.current, t.other)), [])
       case _ => Continue(t, []))
    case Input(FromOther, input) =>
      match input
      case Closed(_, _, _) =>
        Over(DisconnectOf(t.other), t.board, Some(Disconnected(t.other)), [Outbound(t.other, Forward(input))])
      case GameBase(LeaveGameType, _) =>
        Over(LeftBy(t.other), t.board, Some(LeftGame(t.other, t.current)), [])
      case _ => Continue(t, [])
  }

  // ---------------------------------------------------------------------------
  // Per-event behaviour

  /** An out-of-range or occupied target: nothing changes and only the mover hears about it. */
  lemma InvalidMoveRejected(kind: LoopKind, gameId: string, t: Turn, row: int, col: int, mark: string)
    requires !CheckValidInsertion(t.board, row, col)
    ensures Step(kind, gameId, t, Input(FromCurrent, Move(row, col, mark)))
            == Continue(t, [Outbound(t.current, MoveError(InvalidInsertion(row, col)))])
  {
  }

  /** Cancellation ends the loop at once: no report upstream and nothing to either player. */
  lemma CancelledEnds(kind: LoopKind, gameId: string, t: Turn)
    ensures Step(kind, gameId, t, Cancelled) == Over(Stopped, t.board, None, [])
  {
  }

  /** A legal move without a win places, decays, and hands the turn to the other player. */
  lemma LegalMoveSwapsTurn(kind: LoopKind, gameId: string, t: Turn, row: int, col: int, mark: string)
    requires CheckValidInsertion(t.board, row, col)
    requires !HasWinningLine(AfterMove(t.board, row, col, mark))
    ensures Step(kind, gameId, t, Input(FromCurrent, Move(row, col, mark))).Continue?
    ensures Step(kind, gameId, t, Input(FromCurrent, Move(row, col, mark))).turn
            == Turn(UpdateLives(SetCell(t.board, row, col, mark).value), t.other, t.current)
  {
  }

  /** A legal move that completes a line ends the game with the mover as winner. */
  lemma WinningMoveEnds(kind: LoopKind, gameId: string, t: Turn, row: int, col: int, mark: string)
    requires CheckValidInsertion(t.board, row, col)
    requires HasWinningLine(AfterMove(t.board, row, col, mark))
    ensures var r := Step(kind, gameId, t, Input(FromCurrent, Move(row, col, mark)));
            r.Over? && r.ending == Won(t.current)
            && r.board == CheckWin(AfterMove(t.board, row, col, mark)).1
            && (kind == Matchmade ==> r.upstream.None?)
            && (kind == Matchmade ==> r.out == [Outbound(t.current, GameOver(r.board, t.current)), Outbound(t.other, GameOver(r.board, t.current))])
            && (kind == Invite ==> r.upstream == Some(InviteOver(gameId, r.board, t.current, (t.current, t.other))))
  {
  }

  /** Moves from the player who is not on turn are ignored. */
  lemma OtherMoveIgnored(kind: LoopKind, gameId: string, t: Turn, row: int, col: int, mark: string)
    ensures Step(kind, gameId, t, Input(FromOther, Move(row, col, mark))) == Continue(t, [])
  {
  }

  /** Either player may leave; the requester and the remaining player are reported upstream. */
  lemma LeaveGameEnds(kind: LoopKind, gameId: string, t: Turn, side: Side, id: Identities.Identity)
    ensures var r := Step(kind, gameId, t, Input(side, GameBase(LeaveGameType, id)));
            r.Over? && r.board == t.board
            && r.upstream == Some(if side == FromCurrent then LeftGame(t.current, t.other) else LeftGame(t.other, t.current))
  {
  }

  /** A leave-queue request inside a game is ignored, whoever sends it. */
  lemma LeaveQueueIgnored(kind: LoopKind, gameId: string, t: Turn, side: Side, id: Identities.Identity)
    ensures Step(kind, gameId, t, Input(side, GameBase(LeaveQueueType, id))) == Continue(t, [])
  {
  }

  /**
   * The current player's disconnect ends the game, reported as that player's
   * disconnect; the event is written to the other player.
   */
  lemma CurrentDisconnectEnds(kind: LoopKind, gameId: string, t: Turn, p: PlayerRef)
    ensures Step(kind, gameId, t, Input(FromCurrent, PlayerDisconnected(p)))
            == Over(DisconnectOf(t.current), t.board, Some(Disconnected(t.current)), [Outbound(t.other, Forward(PlayerDisconnected(p)))])
  {
  }

  /**
   * A close request from the other player ends the game as that player's
   * disconnect; the close message is echoed back to the player who sent it.
   */
  lemma OtherCloseEnds(kind: LoopKind, gameId: string, t: Turn, msgType: string, id: Identities.Identity, reason: string)
    ensures var c := Closed(msgType, id, reason);
            Step(kind, gameId, t, Input(FromOther, c))
            == Over(DisconnectOf(t.other), t.board, Some(Disconnected(t.other)), [Outbound(t.other, Forward(c))])
  {
  }

  /**
   * The loop matches a disconnect only on the current player's channel and a
   * close only on the other player's: a disconnect of the waiting player, or a
   * close from the player on turn, is ignored.
   */
  lemma UnmatchedEndingsIgnored(kind: LoopKind, gameId: string, t: Turn, p: PlayerRef, msgType: string, id: Identities.Identity, reason: string)
    ensures Step(kind, gameId, t, Input(FromOther, PlayerDisconnected(p))) == Continue(t, [])
    ensures Step(kind, gameId, t, Input(FromCurrent, Closed(msgType, id, reason))) == Continue(t, [])
  {
  }

  // ---------------------------------------------------------------------------
  // Running a game against the player table

  /**
   * One loop iteration together with the loop's exit: whenever the loop ends,
   * for whatever reason, both players' in-game flags are cleared.
   */
  function RunStep(ps: PlayerTable, g: Game, kind: LoopKind, t: Turn, ev: LoopEvent): (r: (StepResult, PlayerTable))
    requires g.player1.Some? && g.player2.Some? && g.player1.value in ps && g.player2.value in ps
    ensures r.0 == Step(kind, g.id, t, ev)
    ensures r.0.Continue? ==> r.1 == ps
    ensures r.0.Over? ==> r.1.Keys == ps.Keys && !r.1[g.player1.value].isInGame && !r.1[g.player2.value].isInGame
    ensures r.0.Over? ==> forall o :: o in ps && o != g.player1.value && o != g.player2.value ==> r.1[o] == ps[o]
  {
    var step := Step(kind, g.id, t, ev);
    if step.Continue? then (step, ps)
    else
      var ps1 := SetFlag(ps, g.player1.value, false);
      (step, SetFlag(ps1, g.player2.value, false))
  }

  /** Feeds events to the loop until it ends or the events run out. */
  function Play(kind: LoopKind, gameId: string, t: Turn, evs: seq<LoopEvent>): StepResult
    decreases |evs|
  {
    if |evs| == 0 then Continue(t, [])
    else
      var r := Step(kind, gameId, t, evs[0]);
      if r.Over? then r else Play(kind, gameId, r.turn, evs[1..])
  }

  /** The two seats of a turn, as a set. */
  function Seats(t: Turn): set<PlayerRef> {
    {t.current, t.other}
  }

  /**
   * Over any run of events the board stays well formed (lives within bounds,
   * empty cells at full lives), the turn stays with the same two players, and
   * a game only ever ends in a win for a player seated in it.
   */
  lemma {:induction false} PlayKeepsInvariant(kind: LoopKind, gameId: string, t: Turn, evs: seq<LoopEvent>)
    requires WellFormed(t.board)
    ensures var r := Play(kind, gameId, t, evs);
            (r.Continue? ==> WellFormed(r.turn.board) && Seats(r.turn) == Seats(t))
            && (r.Over? ==> WellFormed(r.board) && (r.ending.Won? ==> r.ending.winner in Seats(t)))
    decreases |evs|
  {
    if |evs| > 0 {
      var r := Step(kind, gameId, t, evs[0]);
      if r.Continue? {
        PlayKeepsInvariant(kind, gameId, r.turn, evs[1..]);
      }
    }
  }

  /** A fresh game starts on a well-formed, unwon board with player 1 on turn. */
  lemma StartIsWellFormed(ps: PlayerTable, players: (PlayerRef, PlayerRef), id: string)
    requires players.0 in ps && players.1 in ps
    ensures var t := Start(NewGame(ps, players, id).0).0;
            WellFormed(t.board) && !HasWinningLine(t.board) && t.current == players.0 && t.other == players.1
  {
    NewBoardWellFormed();
  }
}

=== FILE: identities_map.dfy ===
/** The id-to-identity map (internal/identity/identitiesMap.go). */
module IdentityRegistry {
  import opened Wrappers
  import opened Identities

  datatype IdentityError = SpoofedIdentity | IdentityExists | IdentityNotFound

  type IdentitiesMap = map<string, Identity>

  function NewIdentitiesMap(): (m: IdentitiesMap)
    ensures forall id :: GetIdentity(m, id) == (ZeroIdentity, Some(IdentityNotFound))
  {
    map[]
  }

  /**
   * Looks an identity up by id; an unknown id yields the zero identity and a
   * not-found error.
   */
  function GetIdentity(m: IdentitiesMap, id: string): (r: (Identity, Option<IdentityError>))
    ensures r.1.None? <==> id in m
    ensures id in m ==> r.0 == m[id]
    ensures id !in m ==> r == (ZeroIdentity, Some(IdentityNotFound))
  {
    if id in m then (m[id], None) else (ZeroIdentity, Some(IdentityNotFound))
  }

  /**
   * Stores an identity under a fresh id. A known id is never overwritten: a
   * different secret is a spoof, the same secret is a duplicate.
   */
  function AddIdentity(m: IdentitiesMap, newIdentity: Identity): (r: (IdentitiesMap, Option<IdentityError>))
    ensures r.1.None? <==> newIdentity.id !in m
    ensures r.1.None? ==> GetIdentity(r.0, newIdentity.id) == (newIdentity, None)
    ensures r.1.Some? ==> r.0 == m
    ensures r.1 == Some(SpoofedIdentity) <==> newIdentity.id in m && m[newIdentity.id].secret != newIdentity.secret
    ensures r.1 == Some(IdentityExists) <==> newIdentity.id in m && m[newIdentity.id].secret == newIdentity.secret
    ensures forall id :: id != newIdentity.id ==> GetIdentity(r.0, id) == GetIdentity(m, id)
  {
    if newIdentity.id in m then
      if m[newIdentity.id].secret != newIdentity.secret then (m, Some(SpoofedIdentity))
      else (m, Some(IdentityExists))
    else
      (m[newIdentity.id := newIdentity], None)
  }

  /** Unconditional deletion; other ids are untouched. */
  function RemoveIdentity(m: IdentitiesMap, id: string): (r: IdentitiesMap)
    ensures GetIdentity(r, id).1 == Some(IdentityNotFound)
    ensures forall other :: other != id ==> GetIdentity(r, other) == GetIdentity(m, other)
  {
    m - {id}
  }

  lemma RemoveIdentityIdempotent(m: IdentitiesMap, id: string)
    ensures RemoveIdentity(RemoveIdentity(m, id), id) == RemoveIdentity(m, id)
  {
  }

  /**
   * The registry invariant: once an id is stored, no later AddIdentity changes
   * the identity (and so the secret) stored under it.
   */
  lemma AddNeverReplacesStoredIdentity(m: IdentitiesMap, newIdentity: Identity, id: string)
    requires id in m
    ensures id in AddIdentity(m, newIdentity).0
    ensures AddIdentity(m, newIdentity).0[id] == m[id]
  {
    var _ := GetIdentity(AddIdentity(m, newIdentity).0, id);
  }
}

=== FILE: identity.dfy ===
/** Participant identities (internal/identity/identity.go). */
module Identities {

  /**
   * The avatar a fresh identity starts with. Its value is defined outside the
   * files this model covers, so it is left unspecified here.
   */
  const AvatarDefault: string

  /** Full identity: id and secret are issued once; avatar and display name are mutable. */
  datatype Identity = Identity(id: string, secret: string, avatar: string, displayName: string)

  /** The only form shown to other participants: it has no secret field at all. */
  datatype SafeIdentity = SafeIdentity(id: string, avatar: string, displayName: string)

  /** The id/secret pair sent to a client during the handshake. */
  datatype InitialIdentity = InitialIdentity(id: string, secret: string)

  /** The zero value of an identity: every field empty. */
  const ZeroIdentity: Identity := Identity("", "", "", "")

  function NewIdentity(id: string, secret: string): (i: Identity)
    ensures i.id == id && i.secret == secret
    ensures i.avatar == AvatarDefault && i.displayName == ""
  {
    Identity(id, secret, AvatarDefault, "")
  }

  function NewInitialIdentity(id: string, secret: string): (i: InitialIdentity)
    ensures i.id == id && i.secret == secret
  {
    InitialIdentity(id, secret)
  }

  function GetSafeIdentity(i: Identity): (s: SafeIdentity)
    ensures s.id == i.id && s.avatar == i.avatar && s.displayName == i.displayName
  {
    SafeIdentity(i.id, i.avatar, i.displayName)
  }

  /**
   * The projection cannot leak the secret: identities that differ only in their
   * secret project to the same safe identity, and distinct public fields stay
   * distinguishable.
   */
  lemma SafeIdentityIndependentOfSecret(i: Identity, otherSecret: string)
    ensures GetSafeIdentity(i.(secret := otherSecret)) == GetSafeIdentity(i)
  {
  }

  lemma SafeIdentityKeepsPublicFields(i: Identity, j: Identity)
    ensures GetSafeIdentity(i) == GetSafeIdentity(j) <==>
              i.id == j.id && i.avatar == j.avatar && i.displayName == j.displayName
  {
  }
}

=== FILE: identity_manager.dfy ===
/**
 * Registration and validation of identities
 * (internal/identity/identityManager.go). The random id and secret the source
 * generates are inputs here.
 */
module IdentityManager {
  import opened Wrappers
  import opened Identities
  import opened IdentityRegistry

  /**
   * Stores (id, secret) and returns the identity. The registry's error is
   * ignored: on an id collision the map is left unchanged and the identity is
   * returned all the same. The identity is built from id and secret only, so
   * its avatar and display name are empty.
   */
  function RegisterIdentity(m: IdentitiesMap, id: string, secret: string): (r: (IdentitiesMap, Identity))
    ensures r.1.id == id && r.1.secret == secret && r.1.avatar == "" && r.1.displayName == ""
    ensures id in r.0
    ensures id in m ==> r.0 == m
    ensures id !in m ==> GetIdentity(r.0, id) == (r.1, None)
    ensures forall other :: other != id ==> GetIdentity(r.0, other) == GetIdentity(m, other)
  {
    var identity := Identity(id, secret, "", "");
    var (m', _) := AddIdentity(m, identity);
    (m', identity)
  }

  /** Unknown id: not found; known id with another secret: spoofed; otherwise valid. */
  function ValidateIdentity(m: IdentitiesMap, candidate: Identity): (r: (bool, Option<IdentityError>))
    ensures r.0 <==> r.1.None?
    ensures r.0 <==> candidate.id in m && m[candidate.id].secret == candidate.secret
    ensures candidate.id !in m ==> r.1 == Some(IdentityNotFound)
    ensures candidate.id in m && m[candidate.id].secret != candidate.secret ==> r.1 == Some(SpoofedIdentity)
  {
    var (mapped, err) := GetIdentity(m, candidate.id);
    if err.Some? then (false, err)
    else if mapped.secret != candidate.secret then (false, Some(SpoofedIdentity))
    else (true, None)
  }

  /** A freshly registered identity validates. */
  lemma RegisterThenValidate(m: IdentitiesMap, id: string, secret: string)
    requires id !in m
    ensures ValidateIdentity(RegisterIdentity(m, id, secret).0, RegisterIdentity(m, id, secret).1) == (true, None)
  {
  }

  /**
   * After registering u with secret s, an attempt to add u with another secret
   * is rejected as a spoof, the map is unchanged, and only s validates for u.
   */
  lemma SpoofRejected(m: IdentitiesMap, id: string, secret: string, impostor: Identity)
    requires id !in m
    requires impostor.id == id && impostor.secret != secret
    ensures var m1 := RegisterIdentity(m, id, secret).0;
            AddIdentity(m1, impostor) == (m1, Some(SpoofedIdentity))
            && ValidateIdentity(m1, impostor) == (false, Some(SpoofedIdentity))
            && ValidateIdentity(m1, RegisterIdentity(m, id, secret).1) == (true, None)
  {
  }
}

=== FILE: invite_game_manager.dfy ===
/** The registry of invite games, keyed by game id (internal/game/inviteGameManager.go). */
module InviteGames {
  import opened Wrappers
  import opened Games

  type InviteRegistry = map<string, Game>

  function NewInviteGameManager(): (reg: InviteRegistry)
    ensures forall id :: GetGame(reg, id).None?
  {
    map[]
  }

  function GetGame(reg: InviteRegistry, id: string): (r: Option<Game>)
    ensures r.Some? <==> id in reg
    ensures r.Some? ==> r.value == reg[id]
  {
    if id in reg then Some(reg[id]) else None
  }

  /** Registers g under its own id, replacing any game already there. */
  function AddGame(reg: InviteRegistry, g: Game): (r: InviteRegistry)
    ensures GetGame(r, g.id) == Some(g)
    ensures forall id :: id != g.id ==> GetGame(r, id) == GetGame(reg, id)
  {
    reg[g.id := g]
  }

  /** Forgets the game with this id; an unknown id is a no-op. */
  function RemoveGame(reg: InviteRegistry, id: string): (r: InviteRegistry)
    ensures GetGame(r, id).None?
    ensures forall other :: other != id ==> GetGame(r, other) == GetGame(reg, other)
    ensures GetGame(reg, id).None? ==> r == reg
  {
    reg - {id}
  }

  /** Adding twice under one id keeps only the later game. */
  lemma AddGameOverwrites(reg: InviteRegistry, g: Game, g': Game)
    requires g.id == g'.id
    ensures AddGame(AddGame(reg, g), g') == AddGame(reg, g')
  {
  }

  /** Removing an added game restores the registry when the id was unused. */
  lemma RemoveUndoesAdd(reg: InviteRegistry, g: Game)
    requires GetGame(reg, g.id).None?
    ensures RemoveGame(AddGame(reg, g), g.id) == reg
  {
  }
}

=== FILE: messages.dfy ===
/**
 * The message vocabulary between connections, games and the server: client
 * message type tags and the typed events that travel on a player's game
 * channel and server channel (internal/game/player.go, internal/game/game.go,
 * internal/server/server.go).
 */
module Messages {
  import opened Identities

  /** A handle naming one connected player session. */
  type PlayerRef = nat

  /** The discriminator of a client message, with every unrecognised tag kept as is. */
  datatype ClientType =
    | UpdateIdentityType
    | MoveType
    | CloseType
    | RequestGameType
    | LeaveGameType
    | LeaveQueueType
    | JoinInviteType
    | CreateInviteType
    | LeaveInviteType
    | OtherType(tag: string)

  /** The wire tag of a recognised message type. */
  function TagOf(k: ClientType): string
    requires !k.OtherType?
  {
    match k
    case UpdateIdentityType => "updateIdentity"
    case MoveType => "move"
    case CloseType => "close"
    case RequestGameType => "gameRequest"
    case LeaveGameType => "leaveGame"
    case LeaveQueueType => "leaveQueue"
    case JoinInviteType => "joinInviteGame"
    case CreateInviteType => "createInviteGame"
    case LeaveInviteType => "leaveInviteGame"
  }

  /** Classifies a wire tag; decoding and TagOf are inverse on recognised tags. */
  function TypeOfTag(tag: string): (k: ClientType)
    ensures k.OtherType? ==> k.tag == tag
    ensures !k.OtherType? ==> TagOf(k) == tag
  {
    if tag == "updateIdentity" then UpdateIdentityType
    else if tag == "move" then MoveType
    else if tag == "close" then CloseType
    else if tag == "gameRequest" then RequestGameType
    else if tag == "leaveGame" then LeaveGameType
    else if tag == "leaveQueue" then LeaveQueueType
    else if tag == "joinInviteGame" then JoinInviteType
    else if tag == "createInviteGame" then CreateInviteType
    else if tag == "leaveInviteGame" then LeaveInviteType
    else OtherType(tag)
  }

  lemma TagRoundTrip(k: ClientType)
    requires !k.OtherType?
    ensures TypeOfTag(TagOf(k)) == k
  {
  }

  /** The type a forwarded close message is given on the game channel. */
  const GameClosedType: string := "gameClosed"

  /** What a game loop can receive on either player's game channel. */
  datatype GameInput =
    | Move(row: int, col: int, mark: string)
    | Closed(msgType: string, identity: Identity, reason: string)
    | GameBase(kind: ClientType, identity: Identity)
    | Unknown
    | PlayerDisconnected(player: PlayerRef)

  /** What the server's per-player listener can receive on the server channel. */
  datatype ServerInput =
    | IdentityUpdate(identity: Identity)
    | ServerBase(kind: ClientType, identity: Identity)
    | JoinInvite(gameId: string)
    | LeaveInvite(gameId: string)
    | Disconnect(player: PlayerRef)
}

=== FILE: player.dfy ===
/**
 * A connected player session and the routing rules of its read loop
 * (internal/game/player.go). The transport, JSON decoding and the channels
 * themselves are abstracted: a read yields a decoded frame, a decode failure
 * or a read error, and the loop's decision is where the resulting event goes.
 */
module Players {
  import opened Wrappers
  import opened Identities
  import opened IdentityRegistry
  import opened Messages

  datatype Player = Player(identity: Identity, isInGame: bool)

  /** Every player session that completed the handshake, by handle. */
  type PlayerTable = map<PlayerRef, Player>

  function NewPlayer(identity: Identity): (p: Player)
    ensures !p.isInGame && p.identity == identity
  {
    Player(identity, false)
  }

  function SetIsInGame(p: Player, v: bool): (r: Player)
    ensures r.isInGame == v && r.identity == p.identity
  {
    p.(isInGame := v)
  }

  function UpdateIdentity(p: Player, i: Identity): (r: Player)
    ensures r.identity == i && r.isInGame == p.isInGame
  {
    p.(identity := i)
  }

  /** Sets one session's in-game flag in the table; every other session is untouched. */
  function SetFlag(ps: PlayerTable, r: PlayerRef, v: bool): (ps': PlayerTable)
    requires r in ps
    ensures ps'.Keys == ps.Keys
    ensures ps'[r].isInGame == v && ps'[r].identity == ps[r].identity
    ensures forall o :: o in ps && o != r ==> ps'[o] == ps[o]
  {
    ps[r := SetIsInGame(ps[r], v)]
  }

  // ---------------------------------------------------------------------------
  // The read loop

  /** The type-specific fields of a message, as decoded for its type. */
  datatype Body = Body(row: int, col: int, mark: string, reason: string, gameId: string, identity: Identity)

  /**
   * One inbound frame: undecodable, or a type tag, the claimed identity and the
   * type-specific body (None when that second decode fails).
   */
  datatype Frame = Undecodable | Decoded(tag: string, identity: Identity, body: Option<Body>)

  datatype ListenEvent = Received(frame: Frame) | ReadFailed | ContextDone

  datatype Route = Dropped | ToGame(gameInput: GameInput) | ToServer(serverInput: ServerInput)

  /** Where the event goes, whether the loop ends, and whether a farewell notice is written. */
  datatype ListenStep = ListenStep(route: Route, stops: bool, farewell: bool)

  /** Types handled by a running game rather than by the server. */
  predicate GameScoped(k: ClientType) {
    k == MoveType || k == CloseType || k == LeaveGameType || k.OtherType?
  }

  /** Types whose type-specific body must decode before the message is forwarded. */
  predicate NeedsBody(k: ClientType) {
    k == UpdateIdentityType || k == MoveType || k == CloseType || k == JoinInviteType || k == LeaveInviteType
  }

  /** Routes a validated message by its type. */
  function Dispatch(k: ClientType, identity: Identity, body: Option<Body>): (r: Route)
    ensures r.Dropped? <==> NeedsBody(k) && body.None?
    ensures r.ToGame? ==> GameScoped(k)
    ensures r.ToServer? ==> !GameScoped(k)
    // What is forwarded is the decoded message itself.
    ensures body.Some? && k == MoveType ==> r == ToGame(Move(body.value.row, body.value.col, body.value.mark))
    ensures body.Some? && k == CloseType ==> r == ToGame(Closed(GameClosedType, identity, body.value.reason))
    ensures body.Some? && k == UpdateIdentityType ==> r == ToServer(IdentityUpdate(body.value.identity))
    ensures body.Some? && k == JoinInviteType ==> r == ToServer(JoinInvite(body.value.gameId))
    ensures body.Some? && k == LeaveInviteType ==> r == ToServer(LeaveInvite(body.value.gameId))
    ensures k == LeaveGameType ==> r == ToGame(GameBase(k, identity))
    ensures k == RequestGameType || k == LeaveQueueType || k == CreateInviteType ==> r == ToServer(ServerBase(k, identity))
    ensures k.OtherType? ==> r == ToGame(Unknown)
  {
    match k
    case UpdateIdentityType =>
      if body.None? then Dropped else ToServer(IdentityUpdate(body.value.identity))
    case MoveType =>
      if body.None? then Dropped else ToGame(Move(body.value.row, body.value.col, body.value.mark))
    case CloseType =>
      if body.None? then Dropped else ToGame(Closed(GameClosedType, identity, body.value.reason))
    case RequestGameType => ToServer(ServerBase(RequestGameType, identity))
    case LeaveGameType => ToGame(GameBase(LeaveGameType, identity))
    case LeaveQueueType => ToServer(ServerBase(LeaveQueueType, identity))
    case JoinInviteType =>
      if body.None? then Dropped else ToServer(JoinInvite(body.value.gameId))
    case CreateInviteType => ToServer(ServerBase(CreateInviteType, identity))
    case LeaveInviteType =>
      if body.None? then Dropped else ToServer(LeaveInvite(body.value.gameId))
    case OtherType(_) => ToGame(Unknown)
  }

  /**
   * One iteration of the read loop of session `self`. `validate` is the
   * registry's identity check, which is defined outside the files this model covers.
   */
  function Listen(self: PlayerRef, p: Player, validate: Identity -> (bool, Option<IdentityError>), ev: ListenEvent): (r: ListenStep)
    ensures r.stops <==> !ev.Received?
    ensures r.farewell <==> ev.ContextDone?
    ensures ev.ContextDone? ==> r.route == Dropped
    ensures ev.ReadFailed? ==> r.route == (if p.isInGame then ToGame(PlayerDisconnected(self)) else ToServer(Disconnect(self)))
    ensures ev.Received? && ev.frame.Decoded? && validate(ev.frame.identity) != (true, None) ==> r.route == Dropped
    ensures ev.Received? && ev.frame.Decoded? && validate(ev.frame.identity) == (true, None) ==>
              r.route == Dispatch(TypeOfTag(ev.frame.tag), ev.frame.identity, ev.frame.body)
    ensures ev.Received? && ev.frame.Undecodable? ==> r.route == Dropped
  {
    match ev
    case ContextDone => ListenStep(Dropped, true, true)
    case ReadFailed =>
      var route := if p.isInGame then ToGame(PlayerDisconnected(self)) else ToServer(Disconnect(self));
      ListenStep(route, true, false)
    case Received(Undecodable) => ListenStep(Dropped, false, false)
    case Received(Decoded(tag, identity, body)) =>
      var (valid, err) := validate(identity);
      if err.Some? || !valid then ListenStep(Dropped, false, false)
      else ListenStep(Dispatch(TypeOfTag(tag), identity, body), false, false)
  }

  /**
   * A validated message with a decodable body goes to the game channel exactly
   * when its type is game-scoped, and to the server channel otherwise.
   */
  lemma RoutingSplit(self: PlayerRef, p: Player, validate: Identity -> (bool, Option<IdentityError>), tag: string, identity: Identity, body: Body)
    requires validate(identity) == (true, None)
    ensures var r := Listen(self, p, validate, Received(Decoded(tag, identity, Some(body)))).route;
            (r.ToGame? <==> GameScoped(TypeOfTag(tag))) && (r.ToServer? <==> !GameScoped(TypeOfTag(tag)))
  {
  }

  /** A close request reaches the game re-typed, with its identity and reason intact. */
  lemma CloseForwardedRetyped(self: PlayerRef, p: Player, validate: Identity -> (bool, Option<IdentityError>), identity: Identity, body: Body)
    requires validate(identity) == (true, None)
    ensures Listen(self, p, validate, Received(Decoded("close", identity, Some(body)))).route
            == ToGame(Closed(GameClosedType, identity, body.reason))
  {
  }

  /** An unrecognised type is surfaced to the game as an unknown message, never dropped. */
  lemma UnknownTypeSurfaced(self: PlayerRef, p: Player, validate: Identity -> (bool, Option<IdentityError>), tag: string, identity: Identity, body: Option<Body>)
    requires validate(identity) == (true, None)
    requires TypeOfTag(tag).OtherType?
    ensures Listen(self, p, validate, Received(Decoded(tag, identity, body))).route == ToGame(Unknown)
  {
  }
}

=== FILE: player_queue.dfy ===
/**
 * The matchmaking queue (internal/server/playerQueue.go): a FIFO of waiting
 * players plus an index from identity id to queue node. The doubly linked
 * list becomes a sequence of nodes; a node's serial number stands for its
 * pointer identity, so two nodes for the same id stay distinguishable.
 */
module PlayerQueue {
  import opened Wrappers
  import opened Messages

  datatype Node = Node(serial: nat, player: PlayerRef, id: string)

  datatype PlayerQueue = PlayerQueue(nodes: seq<Node>, index: map<string, Node>, nextSerial: nat)

  /** The ids of a run of nodes. */
  function Ids(s: seq<Node>): set<string> {
    set n | n in s :: n.id
  }

  /** No id occurs twice. */
  predicate DistinctIds(s: seq<Node>) {
    forall i, j :: 0 <= i < j < |s| ==> s[i].id != s[j].id
  }

  /**
   * The list/index invariant: the index keys are exactly the listed ids, no id
   * is listed twice, each key maps to its own listed node, and every listed
   * node has a serial below the next one to be issued.
   */
  predicate Consistent(q: PlayerQueue) {
    && DistinctIds(q.nodes)
    && q.index.Keys == Ids(q.nodes)
    && (forall i :: 0 <= i < |q.nodes| ==> q.nodes[i].id in q.index && q.index[q.nodes[i].id] == q.nodes[i])
    && (forall i :: 0 <= i < |q.nodes| ==> q.nodes[i].serial < q.nextSerial)
  }

  function NewPlayerQueue(): (q: PlayerQueue)
    ensures Head(q).None? && Tail(q).None?
    ensures forall id :: !IsPlayerInQueue(q, id)
    ensures Consistent(q)
  {
    PlayerQueue([], map[], 0)
  }

  /** The head node, or nil. */
  function Head(q: PlayerQueue): (h: Option<Node>)
    ensures h.None? <==> |q.nodes| == 0
    ensures h.Some? ==> h.value == q.nodes[0]
  {
    if |q.nodes| == 0 then None else Some(q.nodes[0])
  }

  /** The tail node, or nil. */
  function Tail(q: PlayerQueue): (t: Option<Node>)
    ensures t.None? <==> |q.nodes| == 0
    ensures t.Some? ==> t.value == q.nodes[|q.nodes| - 1]
  {
    if |q.nodes| == 0 then None else Some(q.nodes[|q.nodes| - 1])
  }

  /** Head is nil exactly when Tail is: both mean the list is empty. */
  lemma HeadNilIffTailNil(q: PlayerQueue)
    ensures Head(q).None? <==> Tail(q).None?
  {
  }

  function IsPlayerInQueue(q: PlayerQueue, id: string): (b: bool)
    ensures b <==> id in q.index
  {
    id in q.index
  }

  /** On a consistent queue, the index answers membership of the list itself. */
  lemma IndexAnswersMembership(q: PlayerQueue, id: string)
    requires Consistent(q)
    ensures IsPlayerInQueue(q, id) <==> exists i :: 0 <= i < |q.nodes| && q.nodes[i].id == id
  {
    if IsPlayerInQueue(q, id) {
      var n :| n in q.nodes && n.id == id;
      var i :| 0 <= i < |q.nodes| && q.nodes[i] == n;
    }
  }

  /**
   * Appends a new node at the tail and points the id at it, without checking
   * whether the id is already queued.
   */
  function Enqueue(q: PlayerQueue, player: PlayerRef, id: string): (r: PlayerQueue)
    ensures |r.nodes| == |q.nodes| + 1 && r.nodes[..|q.nodes|] == q.nodes
    ensures Tail(r).Some? && Tail(r).value.player == player && Tail(r).value.id == id
    ensures IsPlayerInQueue(r, id) && r.index[id] == Tail(r).value
    ensures forall other :: other != id ==> (IsPlayerInQueue(r, other) <==> IsPlayerInQueue(q, other))
  {
    var node := Node(q.nextSerial, player, id);
    assert (q.nodes + [node])[..|q.nodes|] == q.nodes;
    PlayerQueue(q.nodes + [node], q.index[id := node], q.nextSerial + 1)
  }

  lemma EnqueueFreshPreservesConsistent(q: PlayerQueue, player: PlayerRef, id: string)
    requires Consistent(q) && !IsPlayerInQueue(q, id)
    ensures Consistent(Enqueue(q, player, id))
  {
    var r := Enqueue(q, player, id);
    var node := Node(q.nextSerial, player, id);
    assert r.nodes == q.nodes + [node];
    assert Ids(r.nodes) == Ids(q.nodes) + {id} by {
      forall x | x in Ids(r.nodes) ensures x in Ids(q.nodes) + {id} {
        var n :| n in r.nodes && n.id == x;
        if n != node { assert n in q.nodes; }
      }
      forall x | x in Ids(q.nodes) ensures x in Ids(r.nodes) {
        var n :| n in q.nodes && n.id == x;
        assert n in r.nodes;
      }
      assert node in r.nodes;
    }
    forall i, j | 0 <= i < j < |r.nodes| ensures r.nodes[i].id != r.nodes[j].id {
      if j == |q.nodes| {
        assert q.nodes[i] in q.nodes;
      }
    }
  }

  /** Enqueueing an id that is already queued breaks the invariant: the id is then listed twice. */
  lemma EnqueueDuplicateBreaksConsistent(q: PlayerQueue, player: PlayerRef, id: string)
    requires Consistent(q) && IsPlayerInQueue(q, id)
    ensures !Consistent(Enqueue(q, player, id))
  {
    var r := Enqueue(q, player, id);
    var n :| n in q.nodes && n.id == id;
    var i :| 0 <= i < |q.nodes| && q.nodes[i] == n;
    assert r.nodes[i] == n && r.nodes[|q.nodes|].id == id;
  }

  /** Pops the head, dropping its id from the index; an empty queue yields nil and is unchanged. */
  function Dequeue(q: PlayerQueue): (r: (PlayerQueue, Option<PlayerRef>))
    ensures |q.nodes| == 0 ==> r == (q, None)
    ensures |q.nodes| > 0 ==> r.1 == Some(q.nodes[0].player) && r.0.nodes == q.nodes[1..]
    ensures |q.nodes| > 0 ==> !IsPlayerInQueue(r.0, q.nodes[0].id)
    ensures |q.nodes| > 0 ==> forall other :: other != q.nodes[0].id ==> (IsPlayerInQueue(r.0, other) <==> IsPlayerInQueue(q, other))
  {
    if |q.nodes| == 0 then (q, None)
    else
      var node := q.nodes[0];
      (PlayerQueue(q.nodes[1..], q.index - {node.id}, q.nextSerial), Some(node.player))
  }

  lemma DequeuePreservesConsistent(q: PlayerQueue)
    ensures Consistent(q) ==> Consistent(Dequeue(q).0)
  {
    if Consistent(q) && |q.nodes| > 0 {
      var r := Dequeue(q).0;
      assert Ids(r.nodes) == Ids(q.nodes) - {q.nodes[0].id} by {
        forall x | x in Ids(q.nodes) - {q.nodes[0].id} ensures x in Ids(r.nodes) {
          var n :| n in q.nodes && n.id == x;
          var i :| 0 <= i < |q.nodes| && q.nodes[i] == n;
          assert i > 0 && r.nodes[i - 1] == n;
        }
        forall x | x in Ids(r.nodes) ensures x in Ids(q.nodes) - {q.nodes[0].id} {
          var n :| n in r.nodes && n.id == x;
          var i :| 0 <= i < |r.nodes| && r.nodes[i] == n;
          assert q.nodes[i + 1] == n;
        }
      }
    }
  }

  /** The position of the first occurrence of n. */
  function FirstIndex(s: seq<Node>, n: Node): (i: nat)
    requires n in s
    ensures i < |s| && s[i] == n && n !in s[..i]
  {
    if s[0] == n then 0
    else
      assert s == [s[0]] + s[1..];
      1 + FirstIndex(s[1..], n)
  }

  /** Deletes the first occurrence of n; a missing n leaves the run unchanged. */
  function RemoveNode(s: seq<Node>, n: Node): (r: seq<Node>)
    ensures n !in s ==> r == s
    ensures n in s ==> |r| == |s| - 1
  {
    if |s| == 0 then []
    else if s[0] == n then s[1..]
    else [s[0]] + RemoveNode(s[1..], n)
  }

  /** Unlinking cuts out exactly the first occurrence and keeps the rest in order. */
  lemma {:induction false} RemoveNodeKeepsOrder(s: seq<Node>, n: Node)
    requires n in s
    ensures RemoveNode(s, n) == s[..FirstIndex(s, n)] + s[FirstIndex(s, n) + 1..]
  {
    if s[0] != n {
      assert n in s[1..] by { assert s == [s[0]] + s[1..]; }
      RemoveNodeKeepsOrder(s[1..], n);
      var i := FirstIndex(s[1..], n);
      assert FirstIndex(s, n) == i + 1;
      assert s[..i + 1] == [s[0]] + s[1..][..i];
      assert s[i + 2..] == s[1..][i + 1..];
    }
  }

  /** Reference: the run with every node of the given id filtered out, order kept. */
  function Without(s: seq<Node>, id: string): seq<Node> {
    if |s| == 0 then []
    else (if s[0].id == id then [] else [s[0]]) + Without(s[1..], id)
  }

  lemma {:induction false} WithoutMembers(s: seq<Node>, id: string)
    ensures forall n :: n in Without(s, id) <==> n in s && n.id != id
  {
    if |s| > 0 {
      WithoutMembers(s[1..], id);
      assert s == [s[0]] + s[1..];
    }
  }

  lemma {:induction false} WithoutDistinct(s: seq<Node>, id: string)
    requires DistinctIds(s)
    ensures DistinctIds(Without(s, id))
  {
    if |s| > 0 {
      WithoutDistinct(s[1..], id);
      WithoutMembers(s[1..], id);
      var w := Without(s[1..], id);
      if s[0].id != id {
        forall j | 0 <= j < |w| ensures w[j].id != s[0].id {
          assert w[j] in s[1..];
          var k :| 0 <= k < |s[1..]| && s[1..][k] == w[j];
          assert s[k + 1] == w[j];
        }
        assert Without(s, id) == [s[0]] + w;
      }
    }
  }

  /** With distinct ids, removing the node of an id is the same as filtering the id out. */
  lemma {:induction false} RemoveNodeIsWithout(s: seq<Node>, n: Node)
    requires DistinctIds(s) && n in s
    ensures RemoveNode(s, n) == Without(s, n.id)
  {
    if s[0] == n {
      WithoutMembers(s[1..], n.id);
      assert Without(s[1..], n.id) == s[1..] by {
        WithoutIdentity(s[1..], n.id);
        forall k | 0 <= k < |s[1..]| ensures s[1..][k].id != n.id {
          assert s[k + 1].id != s[0].id;
        }
      }
    } else {
      assert s[0].id != n.id by {
        var k :| 0 <= k < |s| && s[k] == n;
        assert k > 0;
      }
      RemoveNodeIsWithout(s[1..], n);
    }
  }

  lemma {:induction false} WithoutIdentity(s: seq<Node>, id: string)
    requires forall k :: 0 <= k < |s| ==> s[k].id != id
    ensures Without(s, id) == s
  {
    if |s| > 0 {
      WithoutIdentity(s[1..], id);
      assert s == [s[0]] + s[1..];
    }
  }

  /**
   * Splices out the node the index holds for id and drops the key; an absent
   * id is a no-op. On a consistent queue this deletes exactly the player with
   * that id and keeps everyone else in order.
   */
  function RemovePlayer(q: PlayerQueue, id: string): (r: PlayerQueue)
    ensures !IsPlayerInQueue(q, id) ==> r == q
    ensures !IsPlayerInQueue(r, id)
    ensures forall other :: other != id ==> (IsPlayerInQueue(r, other) <==> IsPlayerInQueue(q, other))
    ensures Consistent(q) ==> Consistent(r) && r.nodes == Without(q.nodes, id)
  {
    if id !in q.index then
      AbsentIdFiltersNothing(q, id);
      q
    else
      var r := PlayerQueue(RemoveNode(q.nodes, q.index[id]), q.index - {id}, q.nextSerial);
      RemovePreservesConsistent(q, id, r);
      r
  }

  lemma AbsentIdFiltersNothing(q: PlayerQueue, id: string)
    requires id !in q.index
    ensures Consistent(q) ==> Without(q.nodes, id) == q.nodes
  {
    if Consistent(q) {
      forall k | 0 <= k < |q.nodes| ensures q.nodes[k].id != id {
        assert q.nodes[k] in q.nodes;
      }
      WithoutIdentity(q.nodes, id);
    }
  }

  lemma RemovePreservesConsistent(q: PlayerQueue, id: string, r: PlayerQueue)
    requires id in q.index
    requires r == PlayerQueue(RemoveNode(q.nodes, q.index[id]), q.index - {id}, q.nextSerial)
    ensures Consistent(q) ==> Consistent(r) && r.nodes == Without(q.nodes, id)
  {
    if Consistent(q) {
      var n := q.index[id];
      assert n in q.nodes && n.id == id by {
        var m :| m in q.nodes && m.id == id;
        var i :| 0 <= i < |q.nodes| && q.nodes[i] == m;
      }
      RemoveNodeIsWithout(q.nodes, n);
      WithoutMembers(q.nodes, id);
      WithoutDistinct(q.nodes, id);
      assert Ids(r.nodes) == Ids(q.nodes) - {id};
      forall i | 0 <= i < |r.nodes|
        ensures r.nodes[i].id in r.index && r.index[r.nodes[i].id] == r.nodes[i]
        ensures r.nodes[i].serial < r.nextSerial
      {
        assert r.nodes[i] in r.nodes;
        var k :| 0 <= k < |q.nodes| && q.nodes[k] == r.nodes[i];
      }
    }
  }

  /**
   * Pairing: with fewer than two players nothing happens; otherwise the two
   * longest-waiting players leave the queue, first the head, then the next.
   */
  function GetTwoPlayers(q: PlayerQueue): (r: (PlayerQueue, Option<(PlayerRef, PlayerRef)>))
    ensures |q.nodes| < 2 ==> r == (q, None)
    ensures |q.nodes| >= 2 ==> r.1 == Some((q.nodes[0].player, q.nodes[1].player)) && r.0.nodes == q.nodes[2..]
    ensures Consistent(q) ==> Consistent(r.0)
  {
    if |q.nodes| < 2 then (q, None)
    else
      DequeuePreservesConsistent(q);
      var (q1, first) := Dequeue(q);
      DequeuePreservesConsistent(q1);
      var (q2, second) := Dequeue(q1);
      (q2, Some((first.value, second.value)))
  }

  /** A consistent queue never pairs the same id with itself, and both leave the index. */
  lemma PairHasDistinctIds(q: PlayerQueue)
    requires Consistent(q) && |q.nodes| >= 2
    ensures q.nodes[0].id != q.nodes[1].id
    ensures !IsPlayerInQueue(GetTwoPlayers(q).0, q.nodes[0].id)
    ensures !IsPlayerInQueue(GetTwoPlayers(q).0, q.nodes[1].id)
  {
  }

  /** A queue operation as the server issues it. */
  datatype QueueOp = EnqueueOp(player: PlayerRef, id: string) | DequeueOp | RemoveOp(id: string) | PairOp

  function Apply(q: PlayerQueue, op: QueueOp): PlayerQueue {
    match op
    case EnqueueOp(p, id) => Enqueue(q, p, id)
    case DequeueOp => Dequeue(q).0
    case RemoveOp(id) => RemovePlayer(q, id)
    case PairOp => GetTwoPlayers(q).0
  }

  function ApplyAll(q: PlayerQueue, ops: seq<QueueOp>): PlayerQueue
    decreases |ops|
  {
    if |ops| == 0 then q else ApplyAll(Apply(q, ops[0]), ops[1..])
  }

  /** Every enqueue in the run is of an id not queued at that moment. */
  predicate EnqueuesFresh(q: PlayerQueue, ops: seq<QueueOp>)
    decreases |ops|
  {
    |ops| == 0 ||
    ((ops[0].EnqueueOp? ==> !IsPlayerInQueue(q, ops[0].id)) && EnqueuesFresh(Apply(q, ops[0]), ops[1..]))
  }

  /** Any run of operations that never enqueues a queued id keeps the list and index consistent. */
  lemma {:induction false} RunsStayConsistent(q: PlayerQueue, ops: seq<QueueOp>)
    requires Consistent(q) && EnqueuesFresh(q, ops)
    ensures Consistent(ApplyAll(q, ops))
    decreases |ops|
  {
    if |ops| > 0 {
      match ops[0] {
        case EnqueueOp(p, id) => EnqueueFreshPreservesConsistent(q, p, id);
        case DequeueOp => DequeuePreservesConsistent(q);
        case RemoveOp(id) =>
        case PairOp =>
      }
      RunsStayConsistent(Apply(q, ops[0]), ops[1..]);
    }
  }

  /** A, B and C queue in that order: one pairing yields (A, B) and leaves C; a second yields nothing. */
  lemma FifoPairingScenario(a: PlayerRef, b: PlayerRef, c: PlayerRef, ida: string, idb: string, idc: string)
    ensures var q := Enqueue(Enqueue(Enqueue(NewPlayerQueue(), a, ida), b, idb), c, idc);
            var (q1, pair1) := GetTwoPlayers(q);
            pair1 == Some((a, b)) && |q1.nodes| == 1 && q1.nodes[0].player == c
            && GetTwoPlayers(q1).1 == None
  {
  }
}

=== FILE: server.dfy ===
/**
 * The server's per-event effects (internal/server/server.go): the queue,
 * the identity registry, the invite registry and the player sessions form one
 * abstract state, and every handler is a function from one state to the next.
 * Ids the source draws at random (new game ids) are parameters, and so is the
 * registry's identity update, which is defined outside the files this model covers.
 */
module Servers {
  import opened Wrappers
  import opened Identities
  import opened IdentityRegistry
  import opened IdentityManager
  import opened Messages
  import opened Players
  import opened PlayerQueue
  import opened Games
  import opened InviteGames
  import opened Boards

  datatype Server = Server(queue: PlayerQueue, identities: IdentitiesMap, invites: InviteRegistry, players: PlayerTable)

  /** The registry's identity update: the new map and whether the update was accepted. */
  type IdentityUpdater = (IdentitiesMap, Identity) -> (IdentitiesMap, bool)

  /** What the server writes to a player's connection. */
  datatype ServerNotice =
    | GameWaiting
    | RemovedFromQueue
    | RemovedFromGame
    | GameClosedNotice
    | InviteGameCreated(gameId: string)
    | InviteGameOver(board: Boards.Board, winner: PlayerRef, newGameId: string)

  datatype Note = Note(to: PlayerRef, notice: ServerNotice)

  /**
   * The effect of one event: the next state, the notices written, a game whose
   * loop now starts (if any), and whether the listener that handled the event
   * stops.
   */
  datatype Effect = Effect(server: Server, notes: seq<Note>, started: Option<(Game, LoopKind)>, stops: bool)

  function NewServer(): (s: Server)
    ensures Consistent(s.queue) && |s.queue.nodes| == 0
    ensures |s.identities| == 0 && |s.invites| == 0 && |s.players| == 0
  {
    Server(NewPlayerQueue(), NewIdentitiesMap(), NewInviteGameManager(), map[])
  }

  function IdOf(s: Server, p: PlayerRef): string
    requires p in s.players
  {
    s.players[p].identity.id
  }

  /** Queues p at the tail, whether or not p is already queued. */
  function HandleRequestGame(s: Server, p: PlayerRef): (r: Effect)
    requires p in s.players
    ensures Tail(r.server.queue).Some? && Tail(r.server.queue).value.player == p
    ensures |r.server.queue.nodes| == |s.queue.nodes| + 1 && r.server.queue.nodes[..|s.queue.nodes|] == s.queue.nodes
    ensures IsPlayerInQueue(r.server.queue, IdOf(s, p))
    ensures r.server == s.(queue := r.server.queue)
    ensures r.notes == [Note(p, GameWaiting)] && r.started.None? && !r.stops
  {
    Effect(s.(queue := Enqueue(s.queue, p, IdOf(s, p))), [Note(p, GameWaiting)], None, false)
  }

  /** Takes p out of the queue; p need not be queued. */
  function HandleLeaveQueueRequest(s: Server, p: PlayerRef): (r: Effect)
    requires p in s.players
    ensures !IsPlayerInQueue(r.server.queue, IdOf(s, p))
    ensures Consistent(s.queue) ==> r.server.queue.nodes == Without(s.queue.nodes, IdOf(s, p))
    ensures r.server == s.(queue := r.server.queue)
    ensures r.notes == [Note(p, RemovedFromQueue)] && r.started.None? && !r.stops
  {
    Effect(s.(queue := RemovePlayer(s.queue, IdOf(s, p))), [Note(p, RemovedFromQueue)], None, false)
  }

  /** Both players are out of the game; nothing else changes. */
  function HandleLeaveGameRequest(s: Server, requester: PlayerRef, other: PlayerRef): (r: Effect)
    requires requester in s.players && other in s.players
    ensures r.server.players.Keys == s.players.Keys
    ensures !r.server.players[requester].isInGame && !r.server.players[other].isInGame
    ensures forall o :: o in s.players ==> r.server.players[o].identity == s.players[o].identity
    ensures forall o :: o in s.players && o != requester && o != other ==> r.server.players[o] == s.players[o]
    ensures r.server == s.(players := r.server.players)
    ensures r.notes == [Note(requester, RemovedFromGame), Note(other, GameClosedNotice)]
    ensures r.started.None? && !r.stops
  {
    var ps := SetFlag(SetFlag(s.players, requester, false), other, false);
    Effect(s.(players := ps), [Note(requester, RemovedFromGame), Note(other, GameClosedNotice)], None, false)
  }

  /** Every queued node belongs to a session in the table and carries that session's id. */
  predicate QueueBacked(s: Server) {
    forall n :: n in s.queue.nodes ==> n.player in s.players && s.players[n.player].identity.id == n.id
  }

  /**
   * One pass of the queue loop: with two players waiting, the head becomes
   * player 1 and the next player 2 of a new matchmade game; otherwise nothing
   * changes.
   */
  function QueueTick(s: Server, gameId: string): (r: Effect)
    requires forall n :: n in s.queue.nodes ==> n.player in s.players
    ensures |s.queue.nodes| < 2 ==> r == Effect(s, [], None, false)
    ensures |s.queue.nodes| >= 2 ==>
              && r.started.Some? && r.started.value.1 == Matchmade
              && r.started.value.0.player1 == Some(s.queue.nodes[0].player)
              && r.started.value.0.player2 == Some(s.queue.nodes[1].player)
              && r.started.value.0.id == gameId && r.started.value.0.board == NewBoard()
              && r.server.queue.nodes == s.queue.nodes[2..]
              && r.server.players.Keys == s.players.Keys
              && (forall o :: o in s.players && o != s.queue.nodes[0].player && o != s.queue.nodes[1].player ==>
                    r.server.players[o] == s.players[o])
              && r.server.players[s.queue.nodes[0].player].isInGame
              && r.server.players[s.queue.nodes[1].player].isInGame
              && r.notes == [] && !r.stops
    ensures r.server.players.Keys == s.players.Keys
    ensures forall o :: o in s.players ==> r.server.players[o].identity == s.players[o].identity
    ensures r.server.identities == s.identities && r.server.invites == s.invites
  {
    var (q, pair) := GetTwoPlayers(s.queue);
    if pair.None? then Effect(s, [], None, false)
    else
      assert s.queue.nodes[0] in s.queue.nodes && s.queue.nodes[1] in s.queue.nodes;
      var (g, ps) := NewGame(s.players, pair.value, gameId);
      Effect(s.(queue := q, players := ps), [], Some((g, Matchmade)), false)
  }

  /** A started game whose seats both hold sessions in the table. */
  predicate Seated(s: Server, g: Game) {
    g.player1.Some? && g.player2.Some? && g.player1.value in s.players && g.player2.value in s.players
  }

  /** The opponent of a disconnected player: matched by identity id against player 1. */
  function Opponent(s: Server, g: Game, p: PlayerRef): (o: PlayerRef)
    requires Seated(s, g) && p in s.players
    ensures IdOf(s, p) == IdOf(s, g.player1.value) ==> o == g.player2.value
    ensures IdOf(s, p) != IdOf(s, g.player1.value) ==> o == g.player1.value
  {
    if IdOf(s, p) == IdOf(s, g.player1.value) then g.player2.value else g.player1.value
  }

  /** The upstream message names only sessions in the table. */
  predicate UpstreamLive(s: Server, up: Upstream) {
    match up
    case LeftGame(requester, other) => requester in s.players && other in s.players
    case Disconnected(p) => p in s.players
    case InviteOver(_, _, _, players) => true
  }

  /**
   * What the game listener does with one message from game g. A finished
   * invite game is replaced, under a fresh id, by an empty one.
   */
  function OnGameMessage(s: Server, g: Game, up: Upstream, freshId: string): (r: Effect)
    requires Seated(s, g) && UpstreamLive(s, up)
    ensures up.LeftGame? ==> r == HandleLeaveGameRequest(s, up.requester, up.other)
    ensures up.Disconnected? ==> r == HandleLeaveGameRequest(s, up.player, Opponent(s, g, up.player))
    ensures up.InviteOver? ==>
              && GetGame(r.server.invites, freshId) == Some(NewEmptyInviteGame(freshId))
              && (up.gameId != freshId ==> GetGame(r.server.invites, up.gameId).None?)
              && (forall id :: id != up.gameId && id != freshId ==> GetGame(r.server.invites, id) == GetGame(s.invites, id))
              && r.server == s.(invites := r.server.invites)
              && r.notes == [Note(up.players.0, InviteGameOver(up.board, up.winner, freshId)),
                             Note(up.players.1, InviteGameOver(up.board, up.winner, freshId))]
              && r.started.None? && !r.stops
  {
    match up
    case LeftGame(requester, other) => HandleLeaveGameRequest(s, requester, other)
    case Disconnected(p) => HandleLeaveGameRequest(s, p, Opponent(s, g, p))
    case InviteOver(gameId, board, winner, players) =>
      var replacement := NewEmptyInviteGame(freshId);
      var invites := AddGame(RemoveGame(s.invites, gameId), replacement);
      Effect(s.(invites := invites),
             [Note(players.0, InviteGameOver(board, winner, freshId)), Note(players.1, InviteGameOver(board, winner, freshId))],
             None, false)
  }

  /**
   * Joining an invite game that was found: a full game is left alone and ends
   * the listener; a game with player 1 gets p as player 2 and starts; any
   * other gets p as player 1.
   */
  function HandleJoinInvite(s: Server, p: PlayerRef, gameId: string): (r: Effect)
    requires p in s.players && gameId in s.invites
    ensures var g := s.invites[gameId];
            && (g.player1.Some? && g.player2.Some? ==> r == Effect(s, [], None, true))
            && (g.player1.Some? && g.player2.None? ==>
                  r.server.invites == s.invites[gameId := g.(player2 := Some(p))]
                  && r.started == Some((g.(player2 := Some(p)), Invite)) && !r.stops && r.notes == [])
            && (g.player1.None? ==>
                  r.server.invites == s.invites[gameId := g.(player1 := Some(p))]
                  && r.started.None? && !r.stops && r.notes == [])
            && (!(g.player1.Some? && g.player2.Some?) ==>
                  r.server.players == SetFlag(s.players, p, true) && r.server.queue == s.queue && r.server.identities == s.identities)
  {
    var g := s.invites[gameId];
    if g.player1.Some? && g.player2.Some? then Effect(s, [], None, true)
    else if g.player1.Some? then
      var (g', ps) := AddSecondPlayer(g, s.players, p);
      Effect(s.(invites := s.invites[gameId := g'], players := ps), [], Some((g', Invite)), false)
    else
      var (g', ps) := AddFirstPlayer(g, s.players, p);
      Effect(s.(invites := s.invites[gameId := g'], players := ps), [], None, false)
  }

  /** Events the per-player server listener can handle; a join must name a registered game. */
  predicate Handleable(s: Server, p: PlayerRef, input: ServerInput) {
    p in s.players && (input.JoinInvite? ==> input.gameId in s.invites)
  }

  /**
   * What the server listener of player p does with one message from p's server
   * channel. A disconnect drops p from the queue and from the registry; a
   * leave-invite drops the game; a create-invite registers a game opened by p.
   */
  function OnPlayerMessage(s: Server, p: PlayerRef, input: ServerInput, update: IdentityUpdater, freshId: string): (r: Effect)
    requires Handleable(s, p, input)
    ensures input.Disconnect? ==>
              && !IsPlayerInQueue(r.server.queue, IdOf(s, p))
              && GetIdentity(r.server.identities, IdOf(s, p)).1 == Some(IdentityNotFound)
              && r.server == s.(queue := RemovePlayer(s.queue, IdOf(s, p)), identities := RemoveIdentity(s.identities, IdOf(s, p)))
              && r.notes == [] && r.started.None? && !r.stops
    ensures input.LeaveInvite? ==>
              && GetGame(r.server.invites, input.gameId).None?
              && r.server == s.(invites := RemoveGame(s.invites, input.gameId))
              && r.notes == [] && r.started.None? && !r.stops
    ensures input.ServerBase? && input.kind == CreateInviteType ==>
              && GetGame(r.server.invites, freshId).Some?
              && GetGame(r.server.invites, freshId).value.player1 == Some(p)
              && p in r.server.players && r.server.players[p].isInGame
              && r.server == s.(invites := AddGame(s.invites, NewInviteGame(s.players, p, freshId).0),
                                players := NewInviteGame(s.players, p, freshId).1)
              && r.notes == [Note(p, InviteGameCreated(freshId))] && r.started.None? && !r.stops
    ensures input.IdentityUpdate? ==> r.server == s.(identities := update(s.identities, input.identity).0) && r.notes == []
    ensures input.JoinInvite? ==> r == HandleJoinInvite(s, p, input.gameId)
    ensures input.ServerBase? && input.kind == RequestGameType ==> r == HandleRequestGame(s, p)
    ensures input.ServerBase? && input.kind == LeaveQueueType ==> r == HandleLeaveQueueRequest(s, p)
    ensures input.ServerBase? && input.kind !in {RequestGameType, LeaveQueueType, CreateInviteType} ==> r == Effect(s, [], None, false)
    ensures r.started.Some? ==> input.JoinInvite?
    ensures r.stops ==> input.JoinInvite?
  {
    match input
    case Disconnect(_) =>
      var id := IdOf(s, p);
      Effect(s.(queue := RemovePlayer(s.queue, id), identities := RemoveIdentity(s.identities, id)), [], None, false)
    case IdentityUpdate(identity) =>
      var (m, _) := update(s.identities, identity);
      Effect(s.(identities := m), [], None, false)
    case JoinInvite(gameId) => HandleJoinInvite(s, p, gameId)
    case LeaveInvite(gameId) => Effect(s.(invites := RemoveGame(s.invites, gameId)), [], None, false)
    case ServerBase(kind, _) =>
      match kind
      case LeaveQueueType => HandleLeaveQueueRequest(s, p)
      case RequestGameType => HandleRequestGame(s, p)
      case CreateInviteType =>
        var (g, ps) := NewInviteGame(s.players, p, freshId);
        Effect(s.(invites := AddGame(s.invites, g), players := ps), [Note(p, InviteGameCreated(g.id))], None, false)
      case _ => Effect(s, [], None, false)
  }

  // ---------------------------------------------------------------------------
  // Handshake

  /** The first read on a new connection. */
  datatype HandshakeRead = HandshakeReadFailed | HandshakeUndecodable | HandshakeMessage(tag: string, identity: Identity)

  /**
   * Accepting a connection: register (id, secret), then require an identity
   * update as the first message. Only on success does the session join the
   * table, with the updated identity; only a failed read removes the
   * provisional identity again.
   */
  function AddPlayer(s: Server, conn: PlayerRef, id: string, secret: string, first: HandshakeRead, update: IdentityUpdater): (r: (Server, bool))
    requires conn !in s.players
    ensures r.1 <==> first.HandshakeMessage? && TypeOfTag(first.tag) == UpdateIdentityType
                     && update(RegisterIdentity(s.identities, id, secret).0, first.identity).1
    ensures r.1 ==> r.0.players == s.players[conn := NewPlayer(first.identity)]
    ensures !r.1 ==> r.0.players == s.players
    ensures first.HandshakeReadFailed? ==> GetIdentity(r.0.identities, id).1 == Some(IdentityNotFound)
    ensures first.HandshakeReadFailed? ==> r.0.identities == RemoveIdentity(RegisterIdentity(s.identities, id, secret).0, id)
    ensures first.HandshakeUndecodable? ==> r.0.identities == RegisterIdentity(s.identities, id, secret).0
    ensures first.HandshakeMessage? && TypeOfTag(first.tag) != UpdateIdentityType ==>
              r.0.identities == RegisterIdentity(s.identities, id, secret).0
    ensures first.HandshakeMessage? && TypeOfTag(first.tag) == UpdateIdentityType ==>
              r.0.identities == update(RegisterIdentity(s.identities, id, secret).0, first.identity).0
    ensures r.0.queue == s.queue && r.0.invites == s.invites
  {
    var (m1, identity) := RegisterIdentity(s.identities, id, secret);
    var p := NewPlayer(identity);
    match first
    case HandshakeReadFailed => (s.(identities := RemoveIdentity(m1, identity.id)), false)
    case HandshakeUndecodable => (s.(identities := m1), false)
    case HandshakeMessage(tag, claimed) =>
      if TypeOfTag(tag) != UpdateIdentityType then (s.(identities := m1), false)
      else
        var (m2, valid) := update(m1, claimed);
        if !valid then (s.(identities := m2), false)
        else (s.(identities := m2, players := s.players[conn := UpdateIdentity(p, claimed)]), true)
  }

  // ---------------------------------------------------------------------------
  // Server invariant

  /** Every invite game is registered under its own id. */
  predicate InvitesKeyed(s: Server) {
    forall k :: k in s.invites ==> s.invites[k].id == k
  }

  /**
   * The server invariant: the queue's list and index agree, every queued node
   * is a session in the table under its own id, and invite games sit under their ids.
   */
  predicate Inv(s: Server) {
    Consistent(s.queue) && QueueBacked(s) && InvitesKeyed(s)
  }

  lemma NewServerInv()
    ensures Inv(NewServer())
  {
  }

  /** Filtering the queue keeps it backed by sessions in the table. */
  lemma RemoveKeepsBacked(s: Server, id: string)
    requires Inv(s)
    ensures Inv(s.(queue := RemovePlayer(s.queue, id)))
  {
    WithoutMembers(s.queue.nodes, id);
  }

  lemma EnqueueKeepsBacked(s: Server, p: PlayerRef)
    requires Inv(s) && p in s.players && !IsPlayerInQueue(s.queue, IdOf(s, p))
    ensures Inv(HandleRequestGame(s, p).server)
  {
    EnqueueFreshPreservesConsistent(s.queue, p, IdOf(s, p));
    var q := HandleRequestGame(s, p).server.queue;
    assert q.nodes == s.queue.nodes + [Node(s.queue.nextSerial, p, IdOf(s, p))];
  }

  /** Flag changes never touch identities, so they keep the queue backed. */
  lemma FlagsKeepBacked(s: Server, ps: PlayerTable)
    requires Inv(s)
    requires ps.Keys == s.players.Keys && forall o :: o in s.players ==> ps[o].identity == s.players[o].identity
    ensures Inv(s.(players := ps))
  {
  }

  lemma QueueTickPreservesInv(s: Server, gameId: string)
    requires Inv(s)
    ensures Inv(QueueTick(s, gameId).server)
  {
    var r := QueueTick(s, gameId).server;
    if |s.queue.nodes| >= 2 {
      forall n | n in r.queue.nodes
        ensures n.player in r.players && r.players[n.player].identity.id == n.id
      {
        var i :| 0 <= i < |r.queue.nodes| && r.queue.nodes[i] == n;
        assert s.queue.nodes[i + 2] == n;
      }
    }
  }

  lemma GameMessagePreservesInv(s: Server, g: Game, up: Upstream, freshId: string)
    requires Inv(s) && Seated(s, g) && UpstreamLive(s, up)
    ensures Inv(OnGameMessage(s, g, up, freshId).server)
  {
    var r := OnGameMessage(s, g, up, freshId).server;
    match up
    case LeftGame(requester, other) => FlagsKeepBacked(s, r.players);
    case Disconnected(p) => FlagsKeepBacked(s, r.players);
    case InviteOver(gameId, _, _, _) =>
      forall k | k in r.invites ensures r.invites[k].id == k {
        if k != freshId {
          assert GetGame(r.invites, k) == GetGame(s.invites, k);
        }
      }
  }

  /**
   * Every server-channel event keeps the invariant, except a game request from
   * a player who is already queued, which the source does not guard against.
   */
  lemma PlayerMessagePreservesInv(s: Server, p: PlayerRef, input: ServerInput, update: IdentityUpdater, freshId: string)
    requires Inv(s) && Handleable(s, p, input)
    requires input.ServerBase? && input.kind == RequestGameType ==> !IsPlayerInQueue(s.queue, IdOf(s, p))
    ensures Inv(OnPlayerMessage(s, p, input, update, freshId).server)
  {
    var r := OnPlayerMessage(s, p, input, update, freshId).server;
    match input
    case Disconnect(_) =>
      RemoveKeepsBacked(s, IdOf(s, p));
    case IdentityUpdate(_) =>
    case JoinInvite(gameId) =>
      if !(s.invites[gameId].player1.Some? && s.invites[gameId].player2.Some?) {
        FlagsKeepBacked(s, SetFlag(s.players, p, true));
      }
    case LeaveInvite(_) =>
    case ServerBase(kind, _) =>
      match kind {
        case LeaveQueueType => RemoveKeepsBacked(s, IdOf(s, p));
        case RequestGameType => EnqueueKeepsBacked(s, p);
        case CreateInviteType =>
          FlagsKeepBacked(s, SetFlag(s.players, p, true));
          forall k | k in r.invites ensures r.invites[k].id == k {
            if k != freshId {
              assert GetGame(r.invites, k) == GetGame(s.invites, k);
            }
          }
        case _ =>
      }
  }

  lemma AddPlayerPreservesInv(s: Server, conn: PlayerRef, id: string, secret: string, first: HandshakeRead, update: IdentityUpdater)
    requires Inv(s) && conn !in s.players
    ensures Inv(AddPlayer(s, conn, id, secret, first, update).0)
  {
  }

  /**
   * The source enqueues unconditionally: a player who asks for a game twice
   * while waiting is queued twice, and the next pairing matches the player
   * against itself.
   */
  lemma RepeatedRequestPairsPlayerWithItself(s: Server, p: PlayerRef, gameId: string)
    requires Inv(s) && p in s.players && |s.queue.nodes| == 0
    ensures var s1 := HandleRequestGame(HandleRequestGame(s, p).server, p).server;
            && !Consistent(s1.queue)
            && var r := QueueTick(s1, gameId);
               r.started.Some? && r.started.value.0.player1 == Some(p) && r.started.value.0.player2 == Some(p)
  {
    var s0 := HandleRequestGame(s, p).server;
    EnqueueDuplicateBreaksConsistent(s0.queue, p, IdOf(s, p));
  }

  /**
   * A first message that is not an identity update leaves the session out of
   * the table but keeps the provisional identity registered.
   */
  lemma RejectedHandshakeKeepsProvisionalIdentity(s: Server, conn: PlayerRef, id: string, secret: string,
                                                  tag: string, claimed: Identity, update: IdentityUpdater)
    requires conn !in s.players && id !in s.identities && TypeOfTag(tag) != UpdateIdentityType
    ensures var r := AddPlayer(s, conn, id, secret, HandshakeMessage(tag, claimed), update);
            && !r.1 && conn !in r.0.players
            && GetIdentity(r.0.identities, id) == (Identity(id, secret, "", ""), None)
  {
  }

  /**
   * A session stays in the table after its connection drops, and nothing
   * stops a player in a game from queueing. When such a player's read fails,
   * the disconnect goes to the game channel, and the game's report never
   * touches the queue: the dropped session stays queued and can be paired.
   */
  lemma DisconnectedPlayerStaysQueued(s: Server, g: Game, p: PlayerRef, validate: Identity -> (bool, Option<IdentityError>), freshId: string)
    requires Inv(s) && Seated(s, g) && p in s.players
    requires s.players[p].isInGame && IsPlayerInQueue(s.queue, IdOf(s, p))
    ensures Listen(p, s.players[p], validate, ReadFailed).route == ToGame(PlayerDisconnected(p))
    ensures var r := OnGameMessage(s, g, Disconnected(p), freshId).server;
            p in r.players && IsPlayerInQueue(r.queue, IdOf(s, p))
  {
  }
}

=== FILE: wrappers.dfy ===
/** Failure-carrying result types shared by every module of the model. */
module Wrappers {

  /** A value that may be absent; stands for a nil pointer or a missing map entry. */
  datatype Option<+T> = None | Some(value: T)

  /** The outcome of an operation that returns either a value or an error. */
  datatype Result<+T, +E> = Ok(value: T) | Err(error: E)
}
